=== FILE: README.md ===
# Rainbow poll engine — a Dafny model

This project models the protocol core of `RainbowTcpClient`, a poller that
speaks a small ASCII protocol over TCP. These are the parts it covers:

- **Request frames.** The client holds a table of commands
  `(device, code, meta)`. For each command it builds one 20-character request
  frame: `'@'`, the device, its own station address (0x3FF) and the command
  code, each as three uppercase hexadecimal digits masked to 12 bits, then
  `"00000"`, a two-digit XOR checksum and `"*\r\n"`.
- **Registry.** It registers each command under its (device, code) key. A
  later command replaces an earlier one with the same key.
- **Round-robin polling.** It sends the request at the current index. It
  accepts a response frame only after these checks, in this order:
  - the `'@'` start;
  - the checksum of everything before the last four characters;
  - the destination address;
  - the size field against the payload length;
  - the registry lookup.
- **Dispatch.** It hands the matched command, the payload and a timestamp to
  the `on_data` hook. Then it moves to the next command, and it stops the
  session after the last command of a round.

The modules follow the program's structure:

| file | module | contents |
|---|---|---|
| `wrappers.dfy` | `Wrappers` | `Option`, `Result` |
| `text.dfy` | `Text` | ASCII and hexadecimal text: `'%0<w>X'` rendering, strict hexadecimal parsing |
| `checksum.dfy` | `Crc` | the XOR checksum (`__crc`) |
| `table.dfy` | `Table` | commands, registry keys, the registry built in order |
| `codec.dfy` | `Codec` | request encoding, a reference request reader, the corrected response decoder |
| `poll.dfy` | `Poll` | the session: `_build_buf`, `send_buf`, `process_data`, `on_data`, runs over many frames |
| `aswritten.dfy` | `AsWritten` | `process_data` as written, with Python slicing and `int(x, 16)`, compared with `Poll.Process` |

**Actions are returned, not performed.** `Poll.Send` returns the frame to
write. `Poll.Process` returns an `Outcome` with these parts:
- the new session;
- a `Signal`: `Idle` for the source's `return 0`, `WantWrite` for
  `select.EPOLLOUT`, `Stop` for `self.stop()` followed by `return 0`;
- the hook invocation, if any (`Dispatch`).

Whether the hook raises is a parameter. The timestamp is the caller's `tm` or,
when none is given, a clock reading passed in.

**The corrected decoder.** `Codec.Decode` adds two guards that the source
lacks:
- a minimum frame length of 19 characters;
- a hexadecimal check on every numeric field.

With these guards, frames on which the source raises an exception are rejected
with a classified `DecodeError` instead. The hexadecimal check is also stricter
than Python's `int(x, 16)`. That parser also reads a sign, surrounding
whitespace, `0x` or an underscore, so the source may dispatch a frame whose
source field is `" 01"`, while `Codec.Decode` rejects it as `NotHex`.
`Poll.Process` uses this decoder. The source's own behaviour is modelled
separately as `AsWritten.ProcessAsWritten`, and lemmas relate the two models;
"## Findings" lists the frames on which they differ.

## Model

| member | source | states |
|---|---|---|
| `Text.FormatHex` | fsmrainbow/proto.py:32 | `'%0<w>X'` rendering: uppercase hexadecimal digits, at least `w` of them, exactly `w` when the value fits, and parsing the text gives the value back |
| `Text.FormatOfParse` | fsmrainbow/proto.py:32 | every uppercase field of `w` digits is the rendering of its own value at width `w`, so rendering and parsing are inverse |
| `Text.FormatOfParseAnyCase` | fsmrainbow/proto.py:60-62 | a field of hexadecimal digits in either case, rendered from its value at its own width, is the field in uppercase (`Text.UpperHex`), so a lowercase field such as `"3ff"` reads as the same value as `"3FF"` |
| `Text.ParseHex` | fsmrainbow/proto.py:60-62 | a field parses exactly when it is non-empty and all hexadecimal digits, and its value fits in its width |
| `Crc.Xor` | fsmrainbow/proto.py:22-24 | the running XOR of 7-bit character codes stays below 0x80 |
| `Crc.Checksum` | fsmrainbow/proto.py:21-25 | the checksum text is exactly two uppercase hexadecimal digits, which read back as the XOR of all character codes |
| `Crc.ChecksumEmpty` | fsmrainbow/proto.py:22-25 | the checksum of the empty text is "00" |
| `Crc.XorConcat` | fsmrainbow/proto.py:23-24 | the XOR over a concatenation is the XOR of the parts' XORs |
| `Crc.ChecksumConcat` | fsmrainbow/proto.py:21-25 | the checksum of a concatenation reads back as the XOR of the parts' checksum values |
| `Crc.XorDetectsChange` | fsmrainbow/proto.py:23-24 | replacing any single character with a different ASCII character changes the XOR |
| `Crc.ChecksumDetectsChange` | fsmrainbow/proto.py:55-56 | replacing any single character of the checked text changes the checksum it must match |
| `Table.RegisterIsRegistry` | fsmrainbow/proto.py:28-33 | `Table.Register`, which inserts the commands in order, registers every command's key, and each key maps to the last command that carries it |
| `Table.PackKeyInjective` | fsmrainbow/proto.py:33 | the packed key `device << 24 \| code` identifies the same commands as the (device, code) pair when codes fit in 24 bits |
| `Codec.Mask12` | fsmrainbow/proto.py:32 | `x & 0xfff` is below 0x1000, congruent to `x` modulo 0x1000, and `x` itself when `x` already fits |
| `Codec.Field3` | fsmrainbow/proto.py:32 | a field is three uppercase hexadecimal digits reading back as the masked value |
| `Codec.EncodeRequest` | fsmrainbow/proto.py:32-35 | a request frame is 20 ASCII characters, and the reference reader recovers the device, station and code, each masked to 12 bits |
| `Codec.RequestDecodeCanonical` | fsmrainbow/proto.py:32-34 | every frame the reference reader accepts is exactly the encoding of what it read |
| `Codec.EncodeRequestParts` | fsmrainbow/proto.py:32-34 | the layout of lines 32-34 written out: a request frame is its 15-character header, then that header's checksum, then `"*\r\n"` |
| `Codec.RequestExample` | fsmrainbow/proto.py:32-34 | command (0x001, 0x006) from station 0x3FF encodes as `@0013FF0060000044*\r\n` |
| `Codec.Decode` | fsmrainbow/proto.py:44-73 | an accepted frame is ASCII and starts with '@'. Its checksum matches. Its destination is this station and its fields are hexadecimal. Its payload lies between the size field and the checksum, has even length of at most 510 and matches the size field. Its key is registered, and the matched command is the registry's. ASCII frames shorter than 19 characters are rejected as truncated |
| `Codec.AssembledDecodes` | fsmrainbow/proto.py:51-73 | every frame assembled from well-formed fields for this station and a registered key is accepted with exactly those fields |
| `Codec.DecodedIsAssembled` | fsmrainbow/proto.py:51-73 | every accepted frame is the assembly of its own well-formed fields, which is the converse of `AssembledDecodes` |
| `Codec.ResponseRoundTrip` | fsmrainbow/proto.py:51-73 | a canonical response for this station and a registered key decodes back to its address, source, code and payload |
| `Codec.TailIgnored` | fsmrainbow/proto.py:55-56 | replacing the last two characters of a frame, when they are ASCII, with other ASCII characters never changes the decoder's verdict |
| `Codec.MatchedKeysAreTwelveBit` | fsmrainbow/proto.py:60-62 | decoded source and command values are below 0x1000, so a command with a wider device or code is never matched |
| `Codec.ResponseExample` | fsmrainbow/proto.py:51-73 | `@3FF00100600001AB46*\n` decodes for station 0x3FF with payload "AB" and the command registered under (0x001, 0x006) |
| `Poll.RequestsAt` | fsmrainbow/proto.py:31-35 | the i-th buffer that `Poll.Requests` builds is the encoding of the i-th command, so there is one frame per command, in order |
| `Poll.BuildBuf` | fsmrainbow/proto.py:27-35 | building gives one 20-character request per command in order, each decoding to that command's masked fields. It registers every key, with later commands winning, and resets the index to 0 |
| `Poll.RequestsDecode` | fsmrainbow/proto.py:32-35 | every request buffer decodes to its command's device, the station and its code, masked to 12 bits |
| `Poll.RegistryLastWins` | fsmrainbow/proto.py:33 | a command with no later command of the same key is the one its key maps to |
| `Poll.Send` | fsmrainbow/proto.py:37-40 | nothing is written exactly when there are no request buffers; otherwise one of the buffers is written |
| `Poll.SendCurrent` | fsmrainbow/proto.py:37-40 | with commands configured, the frame written is the request for the command at the index |
| `Poll.SendNothingWithoutCommands` | fsmrainbow/proto.py:38-39 | a session without commands writes nothing |
| `Poll.Advance` | fsmrainbow/proto.py:79 | the index moves to the next buffer and wraps to 0 exactly after the last one |
| `Poll.Process` | fsmrainbow/proto.py:42-85 | handling a frame changes nothing but the index, keeps it in range, and invokes the hook exactly when the frame decodes |
| `Poll.ProcessKeepsValid` | fsmrainbow/proto.py:79 | handling a frame preserves the session invariant: buffers and registry built from the commands, index in range |
| `Poll.Rejected` | fsmrainbow/proto.py:44-72 | every rejected frame returns 0, leaves the index unchanged and invokes no hook |
| `Poll.HookRaised` | fsmrainbow/proto.py:73-76 | when the hook raises, the frame was dispatched but the index stays and 0 is returned |
| `Poll.Advanced` | fsmrainbow/proto.py:79-85 | a completed poll moves the index to `(i + 1) mod N`. It signals Stop exactly when the index wrapped to 0, and WantWrite otherwise |
| `Poll.DispatchContents` | fsmrainbow/proto.py:46-47 | the hook receives the command registered under the frame's source and command fields, the payload `data[15:-4]`, and `Poll.Stamp`: the caller's timestamp, or the clock reading when none is given |
| `Poll.NoCommandsNoDispatch` | fsmrainbow/proto.py:73-76 | a session without commands rejects every frame, because its registry is empty |
| `Poll.Run` | fsmrainbow/proto.py:42-85 | a run over many frames changes only the index and gives one signal per frame |
| `Poll.RunIndex` | fsmrainbow/proto.py:79 | after a run, the index has moved on by the number of completed polls, modulo the number of commands |
| `Poll.RoundFrom` | fsmrainbow/proto.py:79-85 | within a round of completed polls, a signal is Stop exactly when it answers the last command, and WantWrite otherwise |
| `Poll.RoundReturns` | fsmrainbow/proto.py:79-83 | after N completed polls from index 0, the index is back at 0 |
| `Poll.FullRound` | fsmrainbow/proto.py:79-85 | a full round of N completed polls gives N - 1 WantWrite signals and then exactly one Stop, and ends at index 0 |
| `AsWritten.PySlice` | fsmrainbow/proto.py:55-56 | Python slicing: negative bounds count from the end, bounds are clamped, and the slice is empty when the bounds cross |
| `AsWritten.PyInt16` | fsmrainbow/proto.py:60-62 | `int(x, 16)` gives the value exactly when the field is all hexadecimal digits, and raises exactly when the field is empty or holds a character Python never accepts. Only space, tab, line feed, vertical tab, form feed, carriage return, a sign, `x`, `X` and `_` are left undecided |
| `AsWritten.ControlFieldInvalid` | fsmrainbow/proto.py:60-62 | a field holding the control character 0x1C makes `int(x, 16)` raise |
| `AsWritten.ValidateAsWritten` | fsmrainbow/proto.py:44-73 | the source's checks can only raise at lines 49, 60, 61, 62 and 67, and raise at line 49 exactly on non-ASCII input. An accepted frame has at least 14 characters. Its checksum `data[-4:-2]` matches `data[:-4]`, its fields are hexadecimal, and its payload is `data[15:-4]`. The checks of lines 60-73 (the three fields, the destination, the size, the payload length and the key lookup, in that order) are `AsWritten.ValidateFields` |
| `AsWritten.ProcessAsWritten` | fsmrainbow/proto.py:42-85 | the handler as written changes only the index when it returns, and dispatches exactly when its checks accept |
| `AsWritten.DecodedAcceptedAsWritten` | fsmrainbow/proto.py:44-73 | every frame the corrected decoder accepts, the source accepts with the same fields |
| `AsWritten.AcceptedAsWrittenDecodes` | fsmrainbow/proto.py:44-73 | every frame of at least 19 characters that the model of the source accepts, the corrected decoder accepts with the same fields. Frames with fields only Python's lenient parser reads are not covered |
| `AsWritten.DispatchAgrees` | fsmrainbow/proto.py:42-85 | whenever the corrected handler dispatches, the source returns the identical outcome |
| `AsWritten.OutcomeAgrees` | fsmrainbow/proto.py:42-85 | whenever the model of the source returns normally after a rejection, or on a frame of at least 19 characters, the corrected handler returns the same outcome. Frames the model leaves `Unmodelled` are not covered |
| `AsWritten.UndecidedRejected` | fsmrainbow/proto.py:60-67 | the corrected decoder rejects every frame whose fields only Python's lenient parser could read |
| `AsWritten.ShortFrameRaises` | fsmrainbow/proto.py:67 | a 13-character frame with a correct checksum and address makes `int(data[13:15], 16)` raise |
| `AsWritten.ShortFrameRejected` | fsmrainbow/proto.py:67 | the corrected handler rejects that frame as truncated and changes nothing |
| `AsWritten.NonHexRaises` | fsmrainbow/proto.py:60 | a frame with a correct checksum and the address "3FG" makes `int(data[1:4], 16)` raise |
| `AsWritten.NonHexRejected` | fsmrainbow/proto.py:60 | the corrected handler rejects that frame as not hexadecimal |
| `AsWritten.NonAsciiRaises` | fsmrainbow/proto.py:49 | a byte above 0x7F makes the ASCII decoding raise |
| `AsWritten.NonAsciiRejected` | fsmrainbow/proto.py:49 | the corrected handler rejects that frame as not ASCII |
| `AsWritten.OverlapAccepted` | fsmrainbow/proto.py:67-79 | frames of 14, 15 and 17 characters are dispatched with an empty payload, and the index moves to the next request. Their size field `data[13:15]` sits where a checksum or terminator belongs; the 17-character frame reads its own checksum as the size |
| `AsWritten.EmptyPayloadDispatched` | fsmrainbow/proto.py:67-79 | any frame that passes the checks of lines 49-66 with destination 0x3FF, source 0x001, command 0x006, size 0 and an empty `data[15:-4]` is dispatched with an empty payload, and the index moves to the next request |
| `AsWritten.OverlapRejected` | fsmrainbow/proto.py:67-73 | the corrected handler rejects all three frames as truncated |

## Left out

- Transport: the socket, `TcpTransport`, `_write`, the host, port 5843 and the
  poll interval are not modelled. `Poll.Send` returns the frame instead of
  writing it, and the frames are `string`s whose characters stand for bytes.
- `select.EPOLLOUT` is the abstract signal `WantWrite`, not its numeric value.
- `time()` is a clock reading passed in. Timestamps are integers, because the
  model only passes them through, and floating point is not modelled.
- Logging, and the `print` calls in `on_data` and in the exception handler,
  are not modelled. What the hook does is not modelled either; only whether
  it raises is.
- The `_retries` reset (line 43) and `_state = READY` (line 80) belong to the
  transport and are not modelled.
- `main()` and the configuration dictionary are not modelled.
- The registry is keyed by the (device, code) pair, not by the packed integer
  `device << 24 | code`. The two agree for codes in [0, 2^24) and
  non-negative devices (`Table.PackKeyInjective`). The source's bitwise OR on
  negative or wider values, where distinct commands could collide, is not
  modelled.
- `AsWritten.PyInt16`: it does not decide fields made of hexadecimal digits
  and at least one of space, tab, line feed, vertical tab, form feed,
  carriage return, `+`, `-`, `x`, `X` or `_`. Python reads some of these
  (`" 01"`, `"+01"`, `"0x1"`) and raises on others (`"1 1"`, `"--1"`). The
  model marks them all `Undecided`/`Unmodelled` instead of modelling Python's
  integer grammar, so its contract is weaker than Python's full `int(x, 16)`.
- `Poll.Process`: it requires `Shape(s)`. This means the index is within the
  buffers, and nothing is registered when there are no buffers. `_build_buf`
  establishes this and only `process_data` changes it. In the source, calling
  `process_data` before `_build_buf` fails on missing attributes, which is
  not modelled.
- `Crc.Checksum`: it requires ASCII text. The source only checksums request
  headers built from hexadecimal fields, and responses after the ASCII
  decoding at line 49.
- `Codec.Decode`: fields that only Python's lenient parser reads (a sign,
  surrounding whitespace, `0x`, an underscore) are rejected as `NotHex`. In
  the source, such frames reach the dispatch at line 73.
- `AsWritten.AcceptedAsWrittenDecodes`: it covers only frames the model of
  the source decides. Frames with lenient fields are `Undecided` there, and
  the corrected decoder rejects them (`AsWritten.UndecidedRejected`).
- `AsWritten.OutcomeAgrees`: it covers only frames the model of the source
  decides. On frames it leaves `Unmodelled`, the source may dispatch while
  the corrected handler rejects.
- `Poll.DispatchContents`: the source hands `on_data` the configuration entry
  `r` itself. The model hands over the registered `Command` record with its
  `meta` map.

## Findings

| source | as written | input that shows it | evidently intended | confidence | as-written member | corrected member |
|---|---|---|---|---|---|---|
| fsmrainbow/proto.py:67 | `int(data[13:15], 16) << 1` outside the `try`: a frame of at most 13 characters, or of 14 characters ending in a non-hexadecimal character, has an empty or invalid size field, and the ValueError escapes `process_data` | `@3FF0010042*\n` (13 characters, checksum and address correct) | reject the frame as too short and return 0 | medium, not executed | `AsWritten.ShortFrameRaises` | `AsWritten.ShortFrameRejected` |
| fsmrainbow/proto.py:60-62 | `int(data[1:4], 16)` and the next two parses run outside the `try`, so a non-hexadecimal field raises ValueError out of the handler | `@3FG0010060000045*\n` (checksum correct) | reject the frame and return 0 | medium, not executed | `AsWritten.NonHexRaises` | `AsWritten.NonHexRejected` |
| fsmrainbow/proto.py:49 | `str(datain, 'ascii')` raises UnicodeDecodeError on any byte above 0x7F, outside the `try` | the bytes `@` and 0xE9 | reject the frame and return 0 | medium, not executed | `AsWritten.NonAsciiRaises` | `AsWritten.NonAsciiRejected` |
| fsmrainbow/proto.py:67-73 | there is no minimum length: on a frame of 14 to 18 characters, `data[-4:-2]` is read as the checksum, `data[13:15]` as the size, and `data[15:-4]` is empty | `@3FF00100674*0`, `@3FF00100604400` and `@3FF001006t0000*\n` with (0x001, 0x006) registered: each is dispatched with an empty payload, and the round advances | reject frames shorter than the 19-character minimum | medium, not executed | `AsWritten.OverlapAccepted` | `AsWritten.OverlapRejected` |

=== FILE: aswritten.dfy ===
/**
  The frame handler as the source writes it, without the corrected
  decoder's length guard and hexadecimal checks: Python slicing with negative
  indices, `int(field, 16)` that raises on a malformed field, and the
  uncaught exceptions that escape the handler. Fields that only Python's
  lenient integer parser accepts (a sign, surrounding whitespace, "0x", an
  underscore) are left undecided; the source may dispatch such frames, while
  the corrected decoder rejects every one of them (`UndecidedRejected`).
  It is compared with the corrected `Poll.Process`: the two agree on every
  frame the corrected decoder accepts, and on every outcome the model decides
  for frames of 19 characters or more; the lemmas at the end exhibit the
  frames on which they differ.
 */
module AsWritten {
  import opened Wrappers
  import opened Text
  import opened Crc
  import opened Table
  import opened Codec
  import opened Poll

  /** A Python slice bound resolved against length `n`: negative counts from the end, then clamped. */
  function Bound(i: int, n: nat): (k: nat)
    ensures k <= n
    ensures 0 <= i <= n ==> k == i
    ensures i < 0 <= n + i ==> k == n + i
    ensures i > n ==> k == n
    ensures n + i < 0 ==> k == 0
  {
    if i < 0 then (if n + i < 0 then 0 else n + i)
    else if i > n then n else i
  }

  /** Python's `s[i:j]`: empty when the resolved bounds cross. */
  function PySlice(s: string, i: int, j: int): (r: string)
    ensures |r| <= |s|
    ensures 0 <= i <= j <= |s| ==> r == s[i..j]
    ensures 0 <= i <= |s| + j && j < 0 ==> r == s[i..|s| + j]
    ensures 0 <= |s| + i && i <= j < 0 ==> r == s[|s| + i..|s| + j]
    ensures Bound(i, |s|) >= Bound(j, |s|) ==> r == []
    ensures Bound(i, |s|) < Bound(j, |s|) ==> r == s[Bound(i, |s|)..Bound(j, |s|)]
    ensures IsAscii(s) ==> IsAscii(r)
  {
    var a, b := Bound(i, |s|), Bound(j, |s|);
    if a < b then s[a..b] else []
  }

  /**
    The characters Python's `int(x, 16)` tolerates besides hexadecimal
    digits: the whitespace it strips at both ends of an ASCII string (space,
    tab, line feed, vertical tab, form feed, carriage return), a sign, the
    "0x" prefix and digit-separating underscores. Other control characters,
    0x1C to 0x1F among them, are never accepted.
   */
  predicate IsLenient(c: char) {
    c in {' ', '\t', '\n', '\r', '\U{0B}', '\U{0C}', '+', '-', '_', 'x', 'X'}
  }

  /** The result of `int(x, 16)` as far as the model decides it. */
  datatype Parsed = Value(n: nat) | Invalid | Lenient

  /**
    `int(x, 16)` on an ASCII field: the value when every character is a
    hexadecimal digit; a ValueError when the field is empty or holds a
    character Python never accepts; otherwise (a sign, whitespace, "0x" or an
    underscore) the outcome is left undecided.
   */
  function PyInt16(s: string): (p: Parsed)
    ensures p.Value? <==> ParseHex(s).Some?
    ensures p.Value? ==> ParseHex(s) == Some(p.n)
    ensures p.Invalid? <==> |s| == 0 || exists i | 0 <= i < |s| :: !IsHexDigit(s[i]) && !IsLenient(s[i])
  {
    if |s| > 0 && AllHex(s) then Value(HexValue(s))
    else if |s| > 0 && forall i | 0 <= i < |s| :: IsHexDigit(s[i]) || IsLenient(s[i]) then Lenient
    else Invalid
  }

  /** A field holding the control character 0x1C is one `int(x, 16)` raises on. */
  lemma ControlFieldInvalid()
    ensures PyInt16("\U{1C}01") == Invalid
  {
    assert !IsHexDigit("\U{1C}01"[0]) && !IsLenient("\U{1C}01"[0]);
  }

  /** How the source's validation of a frame ends. */
  datatype Check =
    | Reject                  // one of the early `return 0`s, or the KeyError the handler catches
    | Raise(line: nat)        // an exception escapes at this line of the handler
    | Undecided               // a field only Python's lenient integer parser could decide
    | Accept(response: Response)

  /**
    The checks of the received frame in the source's order: ASCII decoding,
    the '@' start, the checksum of `data[:-4]` against `data[-4:-2]`, then the
    fields (`ValidateFields`).
   */
  function ValidateAsWritten(data: string, station: int, registry: map<Key, Command>): (c: Check)
    ensures c.Raise? ==> c.line in {49, 60, 61, 62, 67}
    ensures c.Raise? && c.line == 49 <==> |data| > 0 && !IsAscii(data)
    ensures c.Accept? ==>
      && IsAscii(data) && |data| >= 14 && data[0] == '@'
      && Checksum(PySlice(data, 0, -4)) == PySlice(data, -4, -2)
      && Accepted(data, station, registry, c.response)
  {
    if |data| == 0 then Reject
    else if !IsAscii(data) then Raise(49)
    else if data[0] != '@' then Reject
    else if Checksum(PySlice(data, 0, -4)) != PySlice(data, -4, -2) then Reject
    else ValidateFields(data, station, registry)
  }

  /**
    What an accepted frame carries: this station's address, hexadecimal
    fields, a payload `data[15:-4]` of twice the size field's value, and a
    registered key whose command is the one matched.
   */
  ghost predicate Accepted(data: string, station: int, registry: map<Key, Command>, r: Response) {
    && |data| >= 14
    && r.dest == station
    && ParseHex(data[1..4]) == Some(r.dest)
    && ParseHex(data[4..7]) == Some(r.source)
    && ParseHex(data[7..10]) == Some(r.code)
    && ParseHex(PySlice(data, 13, 15)) == Some(|r.payload| / 2)
    && |r.payload| % 2 == 0
    && r.payload == PySlice(data, 15, -4)
    && (r.source, r.code) in registry
    && registry[(r.source, r.code)] == r.matched
  }

  /**
    The field checks after the checksum, in the source's order: the three
    address and command fields, the destination, the size field, the payload
    length and the registry lookup.
   */
  function ValidateFields(data: string, station: int, registry: map<Key, Command>): (c: Check)
    ensures c.Raise? ==> c.line in {60, 61, 62, 67}
    ensures c.Accept? ==> Accepted(data, station, registry, c.response)
  {
    match PyInt16(PySlice(data, 1, 4))
    case Invalid => Raise(60)
    case Lenient => Undecided
    case Value(dest) =>
      match PyInt16(PySlice(data, 4, 7))
      case Invalid => Raise(61)
      case Lenient => Undecided
      case Value(source) =>
        match PyInt16(PySlice(data, 7, 10))
        case Invalid => Raise(62)
        case Lenient => Undecided
        case Value(code) =>
          if dest != station then Reject
          else
            match PyInt16(PySlice(data, 13, 15))
            case Invalid => Raise(67)
            case Lenient => Undecided
            case Value(half) =>
              var payload := PySlice(data, 15, -4);
              if |payload| != 2 * half then Reject
              else if (source, code) !in registry then Reject
              else Accept(Response(dest, source, code, payload, registry[(source, code)]))
  }

  /** What handling one frame does in the source. */
  datatype Behaviour = Returns(outcome: Outcome) | Raises(line: nat) | Unmodelled

  /**
    The source's frame handler: validation, then the hook, then the index
    advance and the stop at the end of a round. The modulo by the number of
    request buffers cannot divide by zero: without buffers nothing is
    registered, so the lookup has already failed.
   */
  function ProcessAsWritten(s: Session, data: string, tm: Option<Time>, clock: Time, hookRaises: bool): (b: Behaviour)
    requires Shape(s)
    ensures b.Raises? ==> b.line in {49, 60, 61, 62, 67}
    ensures b.Returns? ==> b.outcome.session == s.(index := b.outcome.session.index) && Shape(b.outcome.session)
    ensures b.Returns? && b.outcome.dispatch.Some? <==> ValidateAsWritten(data, s.station, s.registry).Accept?
  {
    match ValidateAsWritten(data, s.station, s.registry)
    case Reject => Returns(Outcome(s, Idle, None))
    case Raise(line) => Raises(line)
    case Undecided => Unmodelled
    case Accept(r) =>
      var d := Dispatch(r.matched, r.payload, Stamp(tm, clock));
      if hookRaises then Returns(Outcome(s, Idle, Some(d)))
      else
        var s' := Advance(s);
        Returns(Outcome(s', if s'.index == 0 then Stop else WantWrite, Some(d)))
  }

  // ------------------------------------------------- agreement with the model

  /** On a frame of at least 4 characters the slices the handler takes are ordinary slices. */
  lemma FrameSlices(data: string)
    requires |data| >= 4
    ensures var n := |data|;
      && PySlice(data, 0, -4) == data[..n - 4]
      && PySlice(data, -4, -2) == data[n - 4..n - 2]
  {
    var n := |data|;
    assert PySlice(data, 0, -4) == data[0..n - 4];
    assert data[0..n - 4] == data[..n - 4];
  }

  /** A frame whose text before the last four characters has the checksum that follows it passes the check. */
  lemma FrameChecked(data: string, h: string, t: string)
    requires |data| >= 4 && IsAscii(h)
    requires data[..|data| - 4] == h && data[|data| - 4..|data| - 2] == t && Checksum(h) == t
    ensures Checksum(PySlice(data, 0, -4)) == PySlice(data, -4, -2)
  {
    FrameSlices(data);
  }

  /** The fixed fields of a frame of at least 19 characters are ordinary slices. */
  lemma FieldSlices(data: string)
    requires |data| >= MinResponseLength
    ensures var n := |data|;
      && PySlice(data, 1, 4) == data[1..4] && PySlice(data, 4, 7) == data[4..7]
      && PySlice(data, 7, 10) == data[7..10] && PySlice(data, 13, 15) == data[13..15]
      && PySlice(data, 15, -4) == data[15..n - 4]
  {
  }

  /** Every frame the corrected decoder accepts, the source accepts with the same fields. */
  lemma DecodedAcceptedAsWritten(data: string, station: int, registry: map<Key, Command>)
    requires Decode(data, station, registry).Ok?
    ensures ValidateAsWritten(data, station, registry) == Accept(Decode(data, station, registry).value)
  {
    FrameSlices(data);
    FieldSlices(data);
  }

  /** A frame of at least 19 characters that the source accepts, the corrected decoder accepts alike. */
  lemma AcceptedAsWrittenDecodes(data: string, station: int, registry: map<Key, Command>)
    requires |data| >= MinResponseLength && ValidateAsWritten(data, station, registry).Accept?
    ensures Decode(data, station, registry) == Ok(ValidateAsWritten(data, station, registry).response)
  {
    FrameSlices(data);
    FieldSlices(data);
  }

  /** Whenever the corrected handler dispatches a frame, the source does exactly the same. */
  lemma DispatchAgrees(s: Session, data: string, tm: Option<Time>, clock: Time, hookRaises: bool)
    requires Shape(s) && Process(s, data, tm, clock, hookRaises).dispatch.Some?
    ensures ProcessAsWritten(s, data, tm, clock, hookRaises) == Returns(Process(s, data, tm, clock, hookRaises))
  {
    DecodedAcceptedAsWritten(data, s.station, s.registry);
  }

  /**
    Whenever the source returns normally, the corrected handler returns the
    same outcome, provided the source rejected the frame or the frame has at
    least 19 characters.
   */
  lemma OutcomeAgrees(s: Session, data: string, tm: Option<Time>, clock: Time, hookRaises: bool, o: Outcome)
    requires Shape(s) && ProcessAsWritten(s, data, tm, clock, hookRaises) == Returns(o)
    requires o.dispatch.None? || |data| >= MinResponseLength
    ensures Process(s, data, tm, clock, hookRaises) == o
  {
    if o.dispatch.None? {
      if Decode(data, s.station, s.registry).Ok? {
        DecodedAcceptedAsWritten(data, s.station, s.registry);
      }
    } else {
      AcceptedAsWrittenDecodes(data, s.station, s.registry);
    }
  }

  /**
    The corrected decoder rejects every frame the model leaves undecided: a
    field that only Python's lenient parser reads is not hexadecimal.
   */
  lemma UndecidedRejected(data: string, station: int, registry: map<Key, Command>)
    requires ValidateAsWritten(data, station, registry).Undecided?
    ensures Decode(data, station, registry).Err?
  {
    if Decode(data, station, registry).Ok? {
      DecodedAcceptedAsWritten(data, station, registry);
    }
  }

  // ---------------------------------------------------------------- findings

  lemma XorOne(a: char)
    requires a as int < 0x80
    ensures IsAscii([a]) && Xor([a]) == Code(a)
  {
    XorStep([], 0, a, [a], Code(a));
  }

  lemma ShortChecksum()
    ensures IsAscii("@3FF00100") && Checksum("@3FF00100") == "42"
  {
    var p, q, r, t := "@3FF0", "01", "00", "";
    assert "@3FF00100" == p + q + r + t;
    assert Xor(p) == 0x43 by { XorFive('@', '3', 'F', 'F', '0'); }
    assert Xor(q) == 0x01 by { XorTwo('0', '1'); }
    assert Xor(r) == 0x00 by { XorTwo('0', '0'); }
    XorOfParts(p, q, r, t);
    FormatTwo(0x42);
  }

  lemma NonHexChecksum()
    ensures IsAscii("@3FG00100600000") && Checksum("@3FG00100600000") == "45"
  {
    var p, q, r, t := "@3FG0", "01006", "00000", "";
    assert "@3FG00100600000" == p + q + r + t;
    assert Xor(p) == 0x42 by { XorFive('@', '3', 'F', 'G', '0'); }
    assert Xor(q) == 0x37 by { XorFive('0', '1', '0', '0', '6'); }
    assert Xor(r) == 0x30 by { XorFive('0', '0', '0', '0', '0'); }
    XorOfParts(p, q, r, t);
    FormatTwo(0x45);
  }

  lemma OverlapChecksum()
    ensures IsAscii("@3FF0010060") && Checksum("@3FF0010060") == "44"
  {
    var p, q, r, t := "@3FF0", "01006", "0", "";
    assert "@3FF0010060" == p + q + r + t;
    assert Xor(p) == 0x43 by { XorFive('@', '3', 'F', 'F', '0'); }
    assert Xor(q) == 0x37 by { XorFive('0', '1', '0', '0', '6'); }
    assert Xor(r) == 0x30 by { XorOne('0'); }
    XorOfParts(p, q, r, t);
    FormatTwo(0x44);
  }

  lemma ShortOverlapChecksum()
    ensures IsAscii("@3FF001006") && Checksum("@3FF001006") == "74"
  {
    var p, q := "@3FF0", "01006";
    assert "@3FF001006" == p + q;
    assert Xor(p) == 0x43 by { XorFive('@', '3', 'F', 'F', '0'); }
    assert Xor(q) == 0x37 by { XorFive('0', '1', '0', '0', '6'); }
    XorConcat(p, q);
    FormatTwo(0x74);
  }

  lemma LongOverlapChecksum()
    ensures IsAscii("@3FF001006t00") && Checksum("@3FF001006t00") == "00"
  {
    var p, q, r := "@3FF0", "01006", "t00";
    assert "@3FF001006t00" == p + q + r;
    assert Xor(p) == 0x43 by { XorFive('@', '3', 'F', 'F', '0'); }
    assert Xor(q) == 0x37 by { XorFive('0', '1', '0', '0', '6'); }
    assert Xor(r) == 0x74 by { XorThree('t', '0', '0'); }
    XorConcat(p, q);
    XorConcat(p + q, r);
    FormatTwo(0x00);
  }

  /** A three-character slice, element by element. */
  lemma SliceThree(data: string, i: nat)
    requires i + 3 <= |data|
    ensures PySlice(data, i, i + 3) == [data[i], data[i + 1], data[i + 2]]
  {
    assert PySlice(data, i, i + 3) == data[i..i + 3];
  }

  /** The address field "3FF" reads as this session's station. */
  lemma StationField()
    ensures PyInt16("3FF") == Value(0x3FF)
  {
    HexValueThree("3FF");
  }

  /**
    A 13-character frame whose checksum and address are right has no size
    field: `int(data[13:15], 16)` is `int("", 16)`, and the ValueError escapes
    the handler.
   */
  lemma ShortFrameRaises(s: Session, tm: Option<Time>, clock: Time, hookRaises: bool)
    requires Shape(s) && s.station == DefaultStation
    ensures ProcessAsWritten(s, "@3FF0010042*\n", tm, clock, hookRaises) == Raises(67)
  {
    ShortFrame();
    ShortFields();
  }

  lemma ShortFrame()
    ensures var data := "@3FF0010042*\n";
      && IsAscii(data) && data[0] == '@'
      && Checksum(PySlice(data, 0, -4)) == PySlice(data, -4, -2)
  {
    var data := "@3FF0010042*\n";
    assert IsAscii(data) && data[0] == '@';
    assert Checksum(PySlice(data, 0, -4)) == PySlice(data, -4, -2) by {
      assert data[..9] == "@3FF00100" by { assert |data[..9]| == 9; }
      assert data[9..11] == "42" by { assert |data[9..11]| == 2; }
      ShortChecksum();
      FrameChecked(data, "@3FF00100", "42");
    }
  }

  lemma ShortFields()
    ensures var data := "@3FF0010042*\n";
      && PyInt16(PySlice(data, 1, 4)) == Value(0x3FF)
      && PyInt16(PySlice(data, 4, 7)).Value? && PyInt16(PySlice(data, 7, 10)).Value?
      && PyInt16(PySlice(data, 13, 15)) == Invalid
  {
    var data := "@3FF0010042*\n";
    assert PySlice(data, 1, 4) == "3FF" by { SliceThree(data, 1); }
    assert PySlice(data, 4, 7) == "001" by { SliceThree(data, 4); }
    assert PySlice(data, 7, 10) == "004" by { SliceThree(data, 7); }
    assert PySlice(data, 13, 15) == "";
    StationField();
  }

  /** The corrected handler rejects that frame as truncated and changes nothing. */
  lemma ShortFrameRejected(s: Session, tm: Option<Time>, clock: Time, hookRaises: bool)
    requires Shape(s)
    ensures Decode("@3FF0010042*\n", s.station, s.registry) == Err(Truncated)
    ensures Process(s, "@3FF0010042*\n", tm, clock, hookRaises) == Outcome(s, Idle, None)
  {
  }

  /** A frame with a non-hexadecimal digit in its address makes `int(data[1:4], 16)` raise. */
  lemma NonHexRaises(s: Session, tm: Option<Time>, clock: Time, hookRaises: bool)
    requires Shape(s)
    ensures ProcessAsWritten(s, "@3FG0010060000045*\n", tm, clock, hookRaises) == Raises(60)
  {
    NonHexFrame();
    var data := "@3FG0010060000045*\n";
    FieldSlices(data);
    var f := PySlice(data, 1, 4);
    assert f == data[1..4] && f[2] == data[3] == 'G';
    assert PyInt16(f) == Invalid by {
      assert !IsHexDigit(f[2]) && !IsLenient(f[2]);
    }
  }

  lemma NonHexFrame()
    ensures var data := "@3FG0010060000045*\n";
      && IsAscii(data) && data[0] == '@'
      && Checksum(PySlice(data, 0, -4)) == PySlice(data, -4, -2)
  {
    var data := "@3FG0010060000045*\n";
    assert IsAscii(data) && data[0] == '@';
    assert Checksum(PySlice(data, 0, -4)) == PySlice(data, -4, -2) by {
      assert data[..15] == "@3FG00100600000" by { assert |data[..15]| == 15; }
      assert data[15..17] == "45" by { assert |data[15..17]| == 2; }
      NonHexChecksum();
      FrameChecked(data, "@3FG00100600000", "45");
    }
  }

  /** The corrected handler rejects it as not hexadecimal. */
  lemma NonHexRejected(s: Session, tm: Option<Time>, clock: Time, hookRaises: bool)
    requires Shape(s)
    ensures Decode("@3FG0010060000045*\n", s.station, s.registry) == Err(NotHex)
    ensures Process(s, "@3FG0010060000045*\n", tm, clock, hookRaises) == Outcome(s, Idle, None)
  {
    var data := "@3FG0010060000045*\n";
    assert IsAscii(data) && Checksum(data[..15]) == data[15..17] by {
      NonHexFrame();
      FrameSlices(data);
    }
    assert ParseHex(data[1..4]).None? by {
      assert data[1..4][2] == data[3] == 'G';
    }
    assert Decode(data, s.station, s.registry) == Err(NotHex);
    Rejected(s, data, tm, clock, hookRaises);
  }

  /** A byte outside ASCII makes the decoding `str(datain, 'ascii')` raise. */
  lemma NonAsciiRaises(s: Session, tm: Option<Time>, clock: Time, hookRaises: bool)
    requires Shape(s)
    ensures ProcessAsWritten(s, "@\U{E9}", tm, clock, hookRaises) == Raises(49)
  {
    assert !IsAscii("@\U{E9}") by { assert "@\U{E9}"[1] as int == 0xE9; }
  }

  /** The corrected handler rejects it as not ASCII. */
  lemma NonAsciiRejected(s: Session, tm: Option<Time>, clock: Time, hookRaises: bool)
    requires Shape(s)
    ensures Decode("@\U{E9}", s.station, s.registry) == Err(NotAscii)
    ensures Process(s, "@\U{E9}", tm, clock, hookRaises) == Outcome(s, Idle, None)
  {
    assert !IsAscii("@\U{E9}") by { assert "@\U{E9}"[1] as int == 0xE9; }
  }

  /** The checks before the fields pass on the 15-character frame. */
  lemma OverlapFrame()
    ensures var data := "@3FF00100604400";
      && IsAscii(data) && data[0] == '@'
      && Checksum(PySlice(data, 0, -4)) == PySlice(data, -4, -2)
  {
    var data := "@3FF00100604400";
    assert IsAscii(data) && data[0] == '@';
    assert Checksum(PySlice(data, 0, -4)) == PySlice(data, -4, -2) by {
      assert data[..11] == "@3FF0010060" by { assert |data[..11]| == 11; }
      assert data[11..13] == "44" by { assert |data[11..13]| == 2; }
      OverlapChecksum();
      FrameChecked(data, "@3FF0010060", "44");
    }
  }

  /** Its address and command fields. */
  lemma OverlapAddresses()
    ensures var data := "@3FF00100604400";
      && PyInt16(PySlice(data, 1, 4)) == Value(0x3FF)
      && PyInt16(PySlice(data, 4, 7)) == Value(0x001)
      && PyInt16(PySlice(data, 7, 10)) == Value(0x006)
  {
    var data := "@3FF00100604400";
    assert PySlice(data, 1, 4) == "3FF" by { SliceThree(data, 1); }
    assert PySlice(data, 4, 7) == "001" by { SliceThree(data, 4); }
    assert PySlice(data, 7, 10) == "006" by { SliceThree(data, 7); }
    StationField();
    HexValueThree("001");
    HexValueThree("006");
  }

  /** Its size field and payload. */
  lemma OverlapSize()
    ensures var data := "@3FF00100604400";
      PyInt16(PySlice(data, 13, 15)) == Value(0) && PySlice(data, 15, -4) == ""
  {
    var data := "@3FF00100604400";
    assert PySlice(data, 13, 15) == "00";
    assert HexValue("00") == 0 by { assert "00"[..1][..0] == []; }
  }

  /** The checks before the fields pass on the 14-character frame. */
  lemma ShortOverlapFrame()
    ensures var data := "@3FF00100674*0";
      && IsAscii(data) && data[0] == '@'
      && Checksum(PySlice(data, 0, -4)) == PySlice(data, -4, -2)
  {
    var data := "@3FF00100674*0";
    assert IsAscii(data) && data[0] == '@';
    assert Checksum(PySlice(data, 0, -4)) == PySlice(data, -4, -2) by {
      assert data[..10] == "@3FF001006" by { assert |data[..10]| == 10; }
      assert data[10..12] == "74" by { assert |data[10..12]| == 2; }
      ShortOverlapChecksum();
      FrameChecked(data, "@3FF001006", "74");
    }
  }

  /** A frame from (0x001, 0x006) to this station reads its three address fields. */
  lemma AddressFields(data: string)
    requires |data| >= 10 && data[1] == '3' && data[2] == 'F' && data[3] == 'F'
    requires data[4] == '0' && data[5] == '0' && data[6] == '1'
    requires data[7] == '0' && data[8] == '0' && data[9] == '6'
    ensures PyInt16(PySlice(data, 1, 4)) == Value(0x3FF)
    ensures PyInt16(PySlice(data, 4, 7)) == Value(0x001)
    ensures PyInt16(PySlice(data, 7, 10)) == Value(0x006)
  {
    assert PyInt16(PySlice(data, 1, 4)) == Value(0x3FF) by {
      SliceThree(data, 1);
      StationField();
    }
    assert PyInt16(PySlice(data, 4, 7)) == Value(0x001) by {
      SliceThree(data, 4);
      HexValueThree("001");
    }
    assert PyInt16(PySlice(data, 7, 10)) == Value(0x006) by {
      SliceThree(data, 7);
      HexValueThree("006");
    }
  }

  /** Its address and command fields, its one-digit size field and its payload. */
  lemma ShortOverlapFields()
    ensures var data := "@3FF00100674*0";
      && PyInt16(PySlice(data, 1, 4)) == Value(0x3FF)
      && PyInt16(PySlice(data, 4, 7)) == Value(0x001)
      && PyInt16(PySlice(data, 7, 10)) == Value(0x006)
      && PyInt16(PySlice(data, 13, 15)) == Value(0) && PySlice(data, 15, -4) == ""
  {
    var data := "@3FF00100674*0";
    AddressFields(data);
    assert PyInt16(PySlice(data, 13, 15)) == Value(0) by {
      assert PySlice(data, 13, 15) == "0";
      assert HexValue("0") == 0 by { assert "0"[..0] == []; }
    }
  }

  /** The checks before the fields pass on the 17-character frame. */
  lemma LongOverlapFrame()
    ensures var data := "@3FF001006t0000*\n";
      && IsAscii(data) && data[0] == '@'
      && Checksum(PySlice(data, 0, -4)) == PySlice(data, -4, -2)
  {
    var data := "@3FF001006t0000*\n";
    assert IsAscii(data) && data[0] == '@';
    assert Checksum(PySlice(data, 0, -4)) == PySlice(data, -4, -2) by {
      assert data[..13] == "@3FF001006t00" by { assert |data[..13]| == 13; }
      assert data[13..15] == "00" by { assert |data[13..15]| == 2; }
      LongOverlapChecksum();
      FrameChecked(data, "@3FF001006t00", "00");
    }
  }

  /** Its fields: the size field is the frame's own checksum, and the payload is empty. */
  lemma LongOverlapFields()
    ensures var data := "@3FF001006t0000*\n";
      && PyInt16(PySlice(data, 1, 4)) == Value(0x3FF)
      && PyInt16(PySlice(data, 4, 7)) == Value(0x001)
      && PyInt16(PySlice(data, 7, 10)) == Value(0x006)
      && PyInt16(PySlice(data, 13, 15)) == Value(0) && PySlice(data, 15, -4) == ""
  {
    var data := "@3FF001006t0000*\n";
    AddressFields(data);
    assert PyInt16(PySlice(data, 13, 15)) == Value(0) by {
      assert PySlice(data, 13, 15) == "00";
      assert HexValue("00") == 0 by { assert "00"[..1][..0] == []; }
    }
  }

  /**
    Frames of 14, 15 and 17 characters are accepted: the size field
    `data[13:15]` ("0", "00", "00") sits where the checksum or the terminator
    of a full frame would be, `data[15:-4]` is empty, and the hook runs with
    an empty payload. The 17-character frame even reads its own checksum as
    the size.
   */
  lemma OverlapAccepted(s: Session, tm: Option<Time>, clock: Time)
    requires Shape(s) && s.station == DefaultStation && (0x001, 0x006) in s.registry
    ensures EmptyDispatch(s, "@3FF00100604400", tm, clock)
    ensures EmptyDispatch(s, "@3FF00100674*0", tm, clock)
    ensures EmptyDispatch(s, "@3FF001006t0000*\n", tm, clock)
  {
    assert EmptyDispatch(s, "@3FF00100604400", tm, clock) by {
      OverlapFrame();
      OverlapAddresses();
      OverlapSize();
      EmptyPayloadDispatched(s, "@3FF00100604400", tm, clock);
    }
    assert EmptyDispatch(s, "@3FF00100674*0", tm, clock) by {
      ShortOverlapFrame();
      ShortOverlapFields();
      EmptyPayloadDispatched(s, "@3FF00100674*0", tm, clock);
    }
    assert EmptyDispatch(s, "@3FF001006t0000*\n", tm, clock) by {
      LongOverlapFrame();
      LongOverlapFields();
      EmptyPayloadDispatched(s, "@3FF001006t0000*\n", tm, clock);
    }
  }

  /**
    The source handles `data` by returning normally: the command registered
    under (0x001, 0x006) is dispatched with an empty payload, and the index
    moves to the next request.
   */
  ghost predicate EmptyDispatch(s: Session, data: string, tm: Option<Time>, clock: Time)
    requires Shape(s) && (0x001, 0x006) in s.registry
  {
    var b := ProcessAsWritten(s, data, tm, clock, false);
    && b.Returns?
    && b.outcome.dispatch == Some(Dispatch(s.registry[(0x001, 0x006)], "", Stamp(tm, clock)))
    && b.outcome.session.index == (s.index + 1) % |s.requests|
  }

  /**
    A frame that passes the checks before the fields, addresses this station
    from (0x001, 0x006) and reads size 0 with an empty payload is dispatched,
    and the index advances.
   */
  lemma EmptyPayloadDispatched(s: Session, data: string, tm: Option<Time>, clock: Time)
    requires Shape(s) && s.station == DefaultStation && (0x001, 0x006) in s.registry
    requires IsAscii(data) && |data| > 0 && data[0] == '@'
    requires Checksum(PySlice(data, 0, -4)) == PySlice(data, -4, -2)
    requires PyInt16(PySlice(data, 1, 4)) == Value(0x3FF)
    requires PyInt16(PySlice(data, 4, 7)) == Value(0x001)
    requires PyInt16(PySlice(data, 7, 10)) == Value(0x006)
    requires PyInt16(PySlice(data, 13, 15)) == Value(0) && PySlice(data, 15, -4) == ""
    ensures EmptyDispatch(s, data, tm, clock)
  {
  }

  /** The corrected handler rejects all three as truncated. */
  lemma OverlapRejected(s: Session, tm: Option<Time>, clock: Time)
    requires Shape(s)
    ensures Decode("@3FF00100604400", s.station, s.registry) == Err(Truncated)
    ensures Process(s, "@3FF00100604400", tm, clock, false) == Outcome(s, Idle, None)
    ensures Decode("@3FF00100674*0", s.station, s.registry) == Err(Truncated)
    ensures Process(s, "@3FF00100674*0", tm, clock, false) == Outcome(s, Idle, None)
    ensures Decode("@3FF001006t0000*\n", s.station, s.registry) == Err(Truncated)
    ensures Process(s, "@3FF001006t0000*\n", tm, clock, false) == Outcome(s, Idle, None)
  {
  }
}

=== FILE: checksum.dfy ===
/**
  The frame checksum: the XOR of every character code, rendered as two
  uppercase hexadecimal digits. It is only ever computed over ASCII text (a
  request header built from hexadecimal fields, or a response after its ASCII
  check), so codes are 7-bit and their XOR fits in a byte.
 */
module Crc {
  import opened Wrappers
  import opened Text

  /** The byte holding a 7-bit character code. */
  function Code(c: char): (b: bv8)
    requires c as int < 0x80
    ensures b < 0x80
  {
    c as bv8
  }

  /** The byte reached by counting up `n` times from zero. */
  function ByteOf(n: nat): bv8
    requires n < 0x80
  {
    if n == 0 then 0 else ByteOf(n - 1) + 1
  }

  lemma ByteSucc(b: bv8)
    requires b < 0x7F
    ensures (b + 1) as int == b as int + 1
  {
  }

  lemma {:induction false} ByteOfValue(n: nat)
    requires n < 0x80
    ensures ByteOf(n) as int == n
  {
    if n > 0 {
      ByteOfValue(n - 1);
      ByteSucc(ByteOf(n - 1));
    }
  }

  lemma ByteRoundTrip(b: bv8)
    ensures (b as int) as bv8 == b
  {
  }

  /** The byte keeps the character's code. */
  lemma CodeValue(c: char)
    requires c as int < 0x80
    ensures Code(c) as int == c as int
  {
    ByteOfValue(c as int);
    ByteRoundTrip(ByteOf(c as int));
  }

  /** XOR of the codes of all characters of `s`; it stays below 0x80. */
  function Xor(s: string): (x: bv8)
    requires IsAscii(s)
    ensures x < 0x80
  {
    if |s| == 0 then 0 else Xor(s[..|s| - 1]) ^ Code(s[|s| - 1])
  }

  /**
    The checksum text of `s`: exactly two uppercase hexadecimal digits which,
    read back, give the XOR of the character codes.
   */
  function Checksum(s: string): (r: string)
    requires IsAscii(s)
    ensures |r| == 2 && IsUpperHex(r) && AllHex(r)
    ensures ParseHex(r) == Some(Xor(s) as int)
  {
    assert Pow16(2) == 256;
    FormatHex(Xor(s) as int, 2)
  }

  /** The XOR of a concatenation is the XOR of the parts' XORs. */
  lemma {:induction false} XorConcat(s: string, t: string)
    requires IsAscii(s) && IsAscii(t)
    ensures IsAscii(s + t) && Xor(s + t) == Xor(s) ^ Xor(t)
  {
    AsciiConcat(s, t);
    if |t| > 0 {
      var t' := t[..|t| - 1];
      assert (s + t)[..|s + t| - 1] == s + t';
      XorConcat(s, t');
    } else {
      assert s + t == s;
    }
  }

  /** Appending one character XORs its code into a known running value. */
  lemma XorStep(s: string, x: bv8, c: char, t: string, y: bv8)
    requires IsAscii(s) && c as int < 0x80 && t == s + [c]
    requires Xor(s) == x && y == x ^ Code(c)
    ensures IsAscii(t) && Xor(t) == y
  {
    assert t[..|s|] == s;
  }

  /** The empty string has checksum "00". */
  lemma ChecksumEmpty()
    ensures Checksum("") == "00"
  {
    FormatOfParse("00");
  }

  /** The checksum of a concatenation renders the XOR of the parts' checksum values. */
  lemma ChecksumConcat(s: string, t: string)
    requires IsAscii(s) && IsAscii(t)
    ensures IsAscii(s + t)
    ensures ParseHex(Checksum(s + t)) == Some((Xor(s) ^ Xor(t)) as int)
  {
    XorConcat(s, t);
  }

  lemma CodeInjective(c: char, d: char)
    requires c as int < 0x80 && d as int < 0x80 && c != d
    ensures Code(c) != Code(d)
  {
    CodeValue(c);
    CodeValue(d);
  }

  /** The XOR of a string splits around any one position. */
  lemma XorAround(s: string, i: nat)
    requires IsAscii(s) && i < |s|
    ensures IsAscii(s[..i]) && IsAscii(s[i + 1..])
    ensures Xor(s) == (Xor(s[..i]) ^ Code(s[i])) ^ Xor(s[i + 1..])
  {
    var pre, post := s[..i], s[i + 1..];
    assert IsAscii(pre) && IsAscii(post);
    assert s == (pre + [s[i]]) + post;
    XorStep(pre, Xor(pre), s[i], pre + [s[i]], Xor(pre) ^ Code(s[i]));
    XorConcat(pre + [s[i]], post);
  }

  lemma XorCancel(a: bv8, b: bv8, x: bv8, y: bv8)
    ensures (a ^ x) ^ b == (a ^ y) ^ b ==> x == y
  {
  }

  /** Replacing any one character with a different ASCII character changes the XOR. */
  lemma XorDetectsChange(s: string, i: nat, c: char)
    requires IsAscii(s) && i < |s| && c as int < 0x80 && c != s[i]
    ensures IsAscii(s[i := c]) && Xor(s[i := c]) != Xor(s)
  {
    var s' := s[i := c];
    assert IsAscii(s');
    XorAround(s, i);
    XorAround(s', i);
    assert s'[..i] == s[..i] && s'[i + 1..] == s[i + 1..];
    CodeInjective(c, s[i]);
    XorCancel(Xor(s[..i]), Xor(s[i + 1..]), Code(c), Code(s[i]));
  }

  lemma ByteValueInjective(x: bv8, y: bv8)
    ensures x as int == y as int ==> x == y
  {
  }

  /** Replacing any one character with a different ASCII character changes the checksum. */
  lemma ChecksumDetectsChange(s: string, i: nat, c: char)
    requires IsAscii(s) && i < |s| && c as int < 0x80 && c != s[i]
    ensures IsAscii(s[i := c]) && Checksum(s[i := c]) != Checksum(s)
  {
    XorDetectsChange(s, i, c);
    ByteValueInjective(Xor(s[i := c]), Xor(s));
  }

  /** The XOR of two characters, spelled out. */
  lemma XorTwo(a: char, b: char)
    requires a as int < 0x80 && b as int < 0x80
    ensures IsAscii([a, b])
    ensures Xor([a, b]) == Code(a) ^ Code(b)
  {
    XorStep([], 0, a, [a], Code(a));
    XorStep([a], Code(a), b, [a, b], Code(a) ^ Code(b));
  }

  lemma XorThree(a: char, b: char, c: char)
    requires a as int < 0x80 && b as int < 0x80 && c as int < 0x80
    ensures IsAscii([a, b, c])
    ensures Xor([a, b, c]) == Code(a) ^ Code(b) ^ Code(c)
  {
    XorTwo(a, b);
    XorStep([a, b], Code(a) ^ Code(b), c, [a, b, c], Code(a) ^ Code(b) ^ Code(c));
  }

  /** The XOR of five characters, spelled out. */
  lemma XorFive(a: char, b: char, c: char, d: char, e: char)
    requires a as int < 0x80 && b as int < 0x80 && c as int < 0x80
    requires d as int < 0x80 && e as int < 0x80
    ensures IsAscii([a, b, c, d, e])
    ensures Xor([a, b, c, d, e]) == Code(a) ^ Code(b) ^ Code(c) ^ Code(d) ^ Code(e)
  {
    XorThree(a, b, c);
    XorTwo(d, e);
    XorConcat([a, b, c], [d, e]);
    assert [a, b, c] + [d, e] == [a, b, c, d, e];
  }

  /** The XOR of four concatenated parts, from the parts' XORs. */
  lemma XorOfParts(p: string, q: string, r: string, t: string)
    requires IsAscii(p) && IsAscii(q) && IsAscii(r) && IsAscii(t)
    ensures IsAscii(p + q + r + t)
    ensures Xor(p + q + r + t) == Xor(p) ^ Xor(q) ^ Xor(r) ^ Xor(t)
  {
    XorConcat(p, q);
    XorConcat(p + q, r);
    XorConcat(p + q + r, t);
  }

  // The header XORs of the two frames used as examples in the codec.

  lemma RequestHeaderXor()
    ensures IsAscii("@0013FF00600000") && Xor("@0013FF00600000") == 0x44
  {
    var p, q, r, t := "@0013", "FF006", "00000", "";
    assert "@0013FF00600000" == p + q + r + t;
    assert Xor(p) == 0x42 by { XorFive('@', '0', '0', '1', '3'); }
    assert Xor(q) == 0x36 by { XorFive('F', 'F', '0', '0', '6'); }
    assert Xor(r) == 0x30 by { XorFive('0', '0', '0', '0', '0'); }
    XorOfParts(p, q, r, t);
  }

  lemma ResponseHeaderXor()
    ensures IsAscii("@3FF00100600001AB") && Xor("@3FF00100600001AB") == 0x46
  {
    var p, q, r, t := "@3FF0", "01006", "00001", "AB";
    assert "@3FF00100600001AB" == p + q + r + t;
    assert Xor(p) == 0x43 by { XorFive('@', '3', 'F', 'F', '0'); }
    assert Xor(q) == 0x37 by { XorFive('0', '1', '0', '0', '6'); }
    assert Xor(r) == 0x31 by { XorFive('0', '0', '0', '0', '1'); }
    assert Xor(t) == 0x03 by {
      XorTwo('A', 'B');
    }
    XorOfParts(p, q, r, t);
  }
}

=== FILE: codec.dfy ===
/**
  Frame codec: the fixed 20-character request frame sent for each command,
  and the ordered chain of checks that turns a received response frame into a
  decoded response or a classified error.

  Response layout (19 + payload characters):
    '@' DEST(3 hex) SRC(3 hex) CMD(3 hex) RESERVED(3) SIZE(2 hex) PAYLOAD CRC(2 hex) TAIL(2)
  The checksum covers everything before CRC; TAIL is never inspected.
 */
module Codec {
  import opened Wrappers
  import opened Text
  import opened Crc
  import opened Table

  const RequestLength := 20
  const MinResponseLength := 19
  const ReservedZeros := "00000"
  const RequestTerminator := "*\r\n"

  /** `x & 0xfff` on a Python int: the residue of x modulo 2^12. */
  function Mask12(x: int): (r: nat)
    ensures r < 0x1000
    ensures (x - r) % 0x1000 == 0
    ensures 0 <= x < 0x1000 ==> r == x
  {
    x % 0x1000
  }

  /** A 12-bit field as exactly three uppercase hexadecimal digits ('%03X'). */
  function Field3(x: int): (r: string)
    ensures |r| == 3 && IsUpperHex(r) && AllHex(r)
    ensures ParseHex(r) == Some(Mask12(x))
  {
    assert Pow16(3) == 0x1000;
    FormatHex(Mask12(x), 3)
  }

  // ---------------------------------------------------------------- requests

  /** The addressing carried by a request frame. */
  datatype Request = Request(device: nat, station: nat, code: nat)

  function RequestHeader(device: int, station: int, code: int): string {
    "@" + Field3(device) + Field3(station) + Field3(code) + ReservedZeros
  }

  /**
    A reference reader for request frames: exactly 20 characters, '@', three
    uppercase 3-digit hexadecimal fields, "00000", the checksum of the first
    15 characters and "*\r\n".
   */
  function DecodeRequest(f: string): Option<Request> {
    if && |f| == RequestLength
       && IsAscii(f)
       && f[0] == '@'
       && IsUpperHex(f[1..4]) && AllHex(f[1..4])
       && IsUpperHex(f[4..7]) && AllHex(f[4..7])
       && IsUpperHex(f[7..10]) && AllHex(f[7..10])
       && f[10..15] == ReservedZeros
       && f[15..17] == Checksum(f[..15])
       && f[17..] == RequestTerminator
    then Some(Request(HexValue(f[1..4]), HexValue(f[4..7]), HexValue(f[7..10])))
    else None
  }

  /**
    The request frame for one command: 20 ASCII characters that the reference
    reader accepts, giving back the three inputs masked to 12 bits.
   */
  function EncodeRequest(device: int, station: int, code: int): (r: string)
    ensures |r| == RequestLength && IsAscii(r)
    ensures DecodeRequest(r) == Some(Request(Mask12(device), Mask12(station), Mask12(code)))
  {
    var d, s, c := Field3(device), Field3(station), Field3(code);
    var h := "@" + d + s + c + ReservedZeros;
    assert IsAscii(h) by {
      HexIsAscii(d);
      HexIsAscii(s);
      HexIsAscii(c);
      AsciiConcat("@", d);
      AsciiConcat("@" + d, s);
      AsciiConcat("@" + d + s, c);
      AsciiConcat("@" + d + s + c, ReservedZeros);
    }
    var crc := Checksum(h);
    var r := h + crc + RequestTerminator;
    assert IsAscii(r) by {
      HexIsAscii(crc);
      AsciiConcat(h, crc);
      AsciiConcat(h + crc, RequestTerminator);
    }
    assert r[..15] == h && r[15..17] == crc && r[17..] == RequestTerminator;
    assert r[1..4] == d && r[4..7] == s && r[7..10] == c && r[10..15] == ReservedZeros;
    r
  }

  /** Every frame the reference reader accepts is the encoding of what it read. */
  lemma RequestDecodeCanonical(f: string)
    requires DecodeRequest(f).Some?
    ensures var q := DecodeRequest(f).value; EncodeRequest(q.device, q.station, q.code) == f
  {
    var q := DecodeRequest(f).value;
    FormatOfParse(f[1..4]);
    FormatOfParse(f[4..7]);
    FormatOfParse(f[7..10]);
    assert Field3(q.device) == f[1..4];
    assert Field3(q.station) == f[4..7];
    assert Field3(q.code) == f[7..10];
    var h := RequestHeader(q.device, q.station, q.code);
    assert h == f[..15];
    assert f == f[..15] + f[15..17] + f[17..];
  }

  /** The header of the encoding example. */
  lemma RequestHeaderExample()
    ensures RequestHeader(0x001, 0x3FF, 0x006) == "@0013FF00600000"
  {
    var device, station, code := 0x001, 0x3FF, 0x006;
    FormatThree(device);
    FormatThree(station);
    FormatThree(code);
    assert RequestHeader(device, station, code) == "@0013FF00600000";
  }

  /** A request frame is its header, the header's checksum and the terminator. */
  lemma EncodeRequestParts(device: int, station: int, code: int)
    ensures IsAscii(RequestHeader(device, station, code))
    ensures var h := RequestHeader(device, station, code);
      EncodeRequest(device, station, code) == h + Checksum(h) + RequestTerminator
  {
    var h := RequestHeader(device, station, code);
    assert IsAscii(h) by {
      var r := EncodeRequest(device, station, code);
      assert r[..15] == h;
    }
  }

  /** Encoding example: command (0x001, 0x006) from station 0x3FF. */
  lemma RequestExample()
    ensures EncodeRequest(0x001, 0x3FF, 0x006) == "@0013FF0060000044*\r\n"
  {
    EncodeRequestParts(0x001, 0x3FF, 0x006);
    RequestHeaderExample();
    RequestChecksumExample();
    RequestFrameExample();
  }

  /** The example frame is its header, checksum and terminator joined. */
  lemma RequestFrameExample()
    ensures "@0013FF00600000" + "44" + RequestTerminator == "@0013FF0060000044*\r\n"
  {
  }

  lemma RequestChecksumExample()
    ensures IsAscii("@0013FF00600000") && Checksum("@0013FF00600000") == "44"
  {
    RequestHeaderXor();
    FormatTwo(0x44);
  }

  // --------------------------------------------------------------- responses

  datatype DecodeError =
    | Empty             // no bytes at all
    | NotAscii          // a byte outside 7-bit ASCII
    | Truncated         // shorter than the 19-character minimum frame
    | MalformedStart    // first character is not '@'
    | ChecksumMismatch  // recomputed checksum differs from the transmitted one
    | NotHex            // an address, command or size field is not hexadecimal
    | AddressMismatch   // destination is not this station
    | LengthMismatch    // payload length differs from twice the size field
    | UnknownKey        // (source, command) names no configured command

  /** A validated response and the command it answers. */
  datatype Response = Response(dest: nat, source: nat, code: nat, payload: string, matched: Command)

  /**
    Validates a received frame for `station`, in the source's order, with an
    explicit length guard and hexadecimal checks in place of the source's
    uncaught exceptions.
   */
  function Decode(data: string, station: int, registry: map<Key, Command>): (r: Result<Response, DecodeError>)
    ensures r.Ok? ==>
      && IsAscii(data) && |data| >= MinResponseLength && data[0] == '@'
      && Checksum(data[..|data| - 4]) == data[|data| - 4..|data| - 2]
      && r.value.dest == station
      && ParseHex(data[1..4]) == Some(r.value.dest)
      && ParseHex(data[4..7]) == Some(r.value.source)
      && ParseHex(data[7..10]) == Some(r.value.code)
      && ParseHex(data[13..15]) == Some(|r.value.payload| / 2)
      && r.value.payload == data[15..|data| - 4]
      && |r.value.payload| % 2 == 0 && |r.value.payload| <= 510
      && (r.value.source, r.value.code) in registry
      && registry[(r.value.source, r.value.code)] == r.value.matched
    ensures 0 < |data| < MinResponseLength && IsAscii(data) ==> r == Err(Truncated)
  {
    if |data| == 0 then Err(Empty)
    else if !IsAscii(data) then Err(NotAscii)
    else if |data| < MinResponseLength then Err(Truncated)
    else if data[0] != '@' then Err(MalformedStart)
    else if Checksum(data[..|data| - 4]) != data[|data| - 4..|data| - 2] then Err(ChecksumMismatch)
    else
      var dest, source, code := ParseHex(data[1..4]), ParseHex(data[4..7]), ParseHex(data[7..10]);
      if dest.None? || source.None? || code.None? then Err(NotHex)
      else if dest.value != station then Err(AddressMismatch)
      else
        var size := ParseHex(data[13..15]);
        if size.None? then Err(NotHex)
        else
          var payload := data[15..|data| - 4];
          if |payload| != 2 * size.value then Err(LengthMismatch)
          else if (source.value, code.value) !in registry then Err(UnknownKey)
          else Ok(Response(dest.value, source.value, code.value, payload, registry[(source.value, code.value)]))
  }

  /**
    A response frame built from its raw fields: the checksum of everything
    before it is inserted between the payload and the two-character tail.
   */
  function Assemble(dest: string, source: string, code: string, reserved: string,
                    size: string, payload: string, tail: string): string
    requires IsAscii(dest) && IsAscii(source) && IsAscii(code)
    requires IsAscii(reserved) && IsAscii(size) && IsAscii(payload)
  {
    var h := "@" + dest + source + code + reserved + size + payload;
    assert IsAscii(h) by {
      AsciiConcat("@", dest);
      AsciiConcat("@" + dest, source);
      AsciiConcat("@" + dest + source, code);
      AsciiConcat("@" + dest + source + code, reserved);
      AsciiConcat("@" + dest + source + code + reserved, size);
      AsciiConcat("@" + dest + source + code + reserved + size, payload);
    }
    h + Checksum(h) + tail
  }

  /** The conditions under which assembled raw fields make a frame for `station`. */
  ghost predicate WellFormedFields(dest: string, source: string, code: string, reserved: string,
                                   size: string, payload: string, tail: string,
                                   station: int, registry: map<Key, Command>)
  {
    && |dest| == 3 && |source| == 3 && |code| == 3 && |reserved| == 3 && |size| == 2 && |tail| == 2
    && AllHex(dest) && AllHex(source) && AllHex(code) && AllHex(size)
    && IsAscii(reserved) && IsAscii(payload) && IsAscii(tail)
    && HexValue(dest) == station
    && |payload| == 2 * HexValue(size)
    && (HexValue(source), HexValue(code)) in registry
  }

  /** Where each field of an assembled frame lands. */
  lemma AssembledLayout(dest: string, source: string, code: string, reserved: string,
                        size: string, payload: string, tail: string)
    requires |dest| == 3 && |source| == 3 && |code| == 3 && |reserved| == 3 && |size| == 2 && |tail| == 2
    requires IsAscii(dest) && IsAscii(source) && IsAscii(code)
    requires IsAscii(reserved) && IsAscii(size) && IsAscii(payload) && IsAscii(tail)
    ensures var f := Assemble(dest, source, code, reserved, size, payload, tail);
      var h := "@" + dest + source + code + reserved + size + payload;
      && IsAscii(h) && IsAscii(f)
      && |f| == MinResponseLength + |payload|
      && f[0] == '@'
      && f[..|f| - 4] == h && f[|f| - 4..|f| - 2] == Checksum(h)
      && f[1..4] == dest && f[4..7] == source && f[7..10] == code
      && f[13..15] == size && f[15..|f| - 4] == payload
  {
    var h := "@" + dest + source + code + reserved + size + payload;
    assert IsAscii(h) by {
      AsciiConcat("@", dest);
      AsciiConcat("@" + dest, source);
      AsciiConcat("@" + dest + source, code);
      AsciiConcat("@" + dest + source + code, reserved);
      AsciiConcat("@" + dest + source + code + reserved, size);
      AsciiConcat("@" + dest + source + code + reserved + size, payload);
    }
    var crc := Checksum(h);
    var f := h + crc + tail;
    assert IsAscii(f) by {
      HexIsAscii(crc);
      AsciiConcat(h, crc);
      AsciiConcat(h + crc, tail);
    }
    assert f[..|f| - 4] == h;
    assert f[|f| - 4..|f| - 2] == crc;
    assert f[1..4] == h[1..4] == dest;
    assert f[4..7] == h[4..7] == source;
    assert f[7..10] == h[7..10] == code;
    assert f[13..15] == h[13..15] == size;
    assert f[15..|f| - 4] == h[15..] == payload;
  }

  /** Decoding succeeds on every well-formed assembled frame and returns its fields. */
  lemma AssembledDecodes(dest: string, source: string, code: string, reserved: string,
                         size: string, payload: string, tail: string,
                         station: int, registry: map<Key, Command>)
    requires WellFormedFields(dest, source, code, reserved, size, payload, tail, station, registry)
    ensures var key := (HexValue(source), HexValue(code));
      Decode(Assemble(dest, source, code, reserved, size, payload, tail), station, registry)
        == Ok(Response(HexValue(dest), HexValue(source), HexValue(code), payload, registry[key]))
  {
    HexIsAscii(dest);
    HexIsAscii(source);
    HexIsAscii(code);
    HexIsAscii(size);
    AssembledLayout(dest, source, code, reserved, size, payload, tail);
  }

  /** Every frame that decodes is an assembly of its own well-formed fields. */
  lemma DecodedIsAssembled(data: string, station: int, registry: map<Key, Command>)
    requires Decode(data, station, registry).Ok?
    ensures var n := |data|; var r := Decode(data, station, registry).value;
      && WellFormedFields(data[1..4], data[4..7], data[7..10], data[10..13], data[13..15],
                          r.payload, data[n - 2..], station, registry)
      && data == Assemble(data[1..4], data[4..7], data[7..10], data[10..13], data[13..15],
                          r.payload, data[n - 2..])
      && r == Response(HexValue(data[1..4]), HexValue(data[4..7]), HexValue(data[7..10]), r.payload,
                       registry[(HexValue(data[4..7]), HexValue(data[7..10]))])
  {
    var n := |data|;
    var r := Decode(data, station, registry).value;
    var h := data[..n - 4];
    assert h == "@" + data[1..4] + data[4..7] + data[7..10] + data[10..13] + data[13..15] + r.payload;
    assert data == h + data[n - 4..n - 2] + data[n - 2..];
    assert IsAscii(data[10..13]) && IsAscii(r.payload) && IsAscii(data[n - 2..]) by {
      assert data == data[..10] + data[10..13] + data[13..];
      AsciiConcat(data[..10], data[10..13]);
      AsciiConcat(data[..10] + data[10..13], data[13..]);
      assert data == data[..15] + r.payload + data[n - 4..];
      AsciiConcat(data[..15], r.payload);
      AsciiConcat(data[..15] + r.payload, data[n - 4..]);
      assert data == data[..n - 2] + data[n - 2..];
      AsciiConcat(data[..n - 2], data[n - 2..]);
    }
  }

  /** A canonical response: uppercase fields, reserved "000", size = half the payload, tail "*\n". */
  function EncodeResponse(dest: int, source: int, code: int, payload: string): string
    requires IsAscii(payload)
  {
    Assemble(Field3(dest), Field3(source), Field3(code), "000", FormatHex(|payload| / 2, 2), payload, "*\n")
  }

  /**
    A decoded response carries 12-bit source and command fields, so a command
    configured with a wider device or code (its request is sent masked) is
    never matched by any response.
   */
  lemma MatchedKeysAreTwelveBit(data: string, station: int, registry: map<Key, Command>, c: Command)
    requires c.device >= 0x1000 || c.code >= 0x1000
    ensures Decode(data, station, registry).Ok? ==>
      var r := Decode(data, station, registry).value;
      r.source < 0x1000 && r.code < 0x1000 && (r.source, r.code) != KeyOf(c)
  {
    assert Pow16(3) == 0x1000;
  }

  /** Round trip: a canonical response for this station and a registered key decodes to its inputs. */
  lemma ResponseRoundTrip(dest: nat, source: nat, code: nat, payload: string,
                          station: int, registry: map<Key, Command>)
    requires dest < 0x1000 && source < 0x1000 && code < 0x1000
    requires dest == station
    requires IsAscii(payload) && |payload| % 2 == 0 && |payload| <= 510
    requires (source, code) in registry
    ensures Decode(EncodeResponse(dest, source, code, payload), station, registry)
      == Ok(Response(dest, source, code, payload, registry[(source, code)]))
  {
    assert Pow16(2) == 256;
    var size := FormatHex(|payload| / 2, 2);
    assert HexValue(size) == |payload| / 2;
    HexIsAscii("000");
    HexIsAscii("*\n"[..0]);
    assert IsAscii("*\n");
    AssembledDecodes(Field3(dest), Field3(source), Field3(code), "000", size, payload, "*\n", station, registry);
  }

  /** The characters after the checksum are never inspected. */
  lemma TailIgnored(data: string, tail: string, station: int, registry: map<Key, Command>)
    requires |data| >= 2 && |tail| == 2
    requires IsAscii(data[|data| - 2..]) && IsAscii(tail)
    ensures Decode(data[..|data| - 2] + tail, station, registry) == Decode(data, station, registry)
  {
    var n := |data|;
    var other := data[..n - 2] + tail;
    assert data == data[..n - 2] + data[n - 2..];
    AsciiConcat(data[..n - 2], data[n - 2..]);
    AsciiConcat(data[..n - 2], tail);
    if n >= MinResponseLength {
      assert other[..n - 4] == data[..n - 4];
      assert other[n - 4..n - 2] == data[n - 4..n - 2];
      assert other[1..4] == data[1..4] && other[4..7] == data[4..7] && other[7..10] == data[7..10];
      assert other[13..15] == data[13..15];
      assert other[15..n - 4] == data[15..n - 4];
    }
  }

  /** The frame of the decoding example, assembled from its raw fields. */
  lemma ResponseFrameExample()
    ensures Assemble("3FF", "001", "006", "000", "01", "AB", "*\n") == "@3FF00100600001AB46*\n"
  {
    var h := "@3FF00100600001AB";
    assert "@" + "3FF" + "001" + "006" + "000" + "01" + "AB" == h;
    assert Checksum(h) == "46" by {
      ResponseHeaderXor();
      FormatTwo(0x46);
    }
  }

  /** The raw fields of the decoding example are well formed for station 0x3FF. */
  lemma ResponseFieldsExample(registry: map<Key, Command>)
    requires (0x001, 0x006) in registry
    ensures HexValue("3FF") == 0x3FF && HexValue("001") == 0x001 && HexValue("006") == 0x006
    ensures WellFormedFields("3FF", "001", "006", "000", "01", "AB", "*\n", 0x3FF, registry)
  {
    HexValueThree("3FF");
    HexValueThree("001");
    HexValueThree("006");
    assert HexValue("01") == 1 by {
      assert "01"[..1][..0] == [];
    }
  }

  /** Decoding example: station 0x3FF receives the reply to command (0x001, 0x006) with payload "AB". */
  lemma ResponseExample(registry: map<Key, Command>)
    requires (0x001, 0x006) in registry
    ensures Decode("@3FF00100600001AB46*\n", 0x3FF, registry)
      == Ok(Response(0x3FF, 0x001, 0x006, "AB", registry[(0x001, 0x006)]))
  {
    ResponseFrameExample();
    ResponseFieldsExample(registry);
    AssembledDecodes("3FF", "001", "006", "000", "01", "AB", "*\n", 0x3FF, registry);
  }
}

=== FILE: poll.dfy ===
/**
  The round-robin poll session: the request buffers and registry built from
  the configured commands, the index of the command to send next, and the
  handling of one received frame (validate, dispatch to the data hook,
  advance, and stop after the last command of a round).

  Transport actions are returned rather than performed: `Send` returns the
  bytes to write, and `Process` returns the signal for the event loop and the
  hook invocation it makes.
 */
module Poll {
  import opened Wrappers
  import opened Text
  import opened Crc
  import opened Table
  import opened Codec

  /** The station address every session speaks as. */
  const DefaultStation := 0x3FF

  /**
    A timestamp as the hook receives it. The source passes floating-point
    seconds through unchanged; the model only passes the value along, so an
    integer reading in any unit stands for it.
   */
  type Time = int

  /** What the event loop is told after a frame: nothing (0), want write (EPOLLOUT), or stop. */
  datatype Signal = Idle | WantWrite | Stop

  /** One invocation of the data hook: the registered command, the payload text and the timestamp. */
  datatype Dispatch = Dispatch(command: Command, payload: string, time: Time)

  datatype Session = Session(
    station: int,
    commands: seq<Command>,
    requests: seq<string>,
    registry: map<Key, Command>,
    index: nat)

  /** The result of handling one received frame. */
  datatype Outcome = Outcome(session: Session, signal: Signal, dispatch: Option<Dispatch>)

  /** The request frames for `commands`, one per command, in order. */
  function Requests(station: int, commands: seq<Command>): (r: seq<string>)
    ensures |r| == |commands|
    decreases |commands|
  {
    if |commands| == 0 then []
    else
      var c := commands[|commands| - 1];
      Requests(station, commands[..|commands| - 1]) + [EncodeRequest(c.device, station, c.code)]
  }

  /** The i-th request frame is the encoding of the i-th command. */
  lemma {:induction false} RequestsAt(station: int, commands: seq<Command>, i: nat)
    requires i < |commands|
    ensures Requests(station, commands)[i] == EncodeRequest(commands[i].device, station, commands[i].code)
    decreases |commands|
  {
    if i < |commands| - 1 {
      RequestsAt(station, commands[..|commands| - 1], i);
    }
  }

  /**
    What handling a frame relies on: the index points at a request, and
    without requests nothing is registered.
   */
  predicate Shape(s: Session) {
    if |s.requests| == 0 then s.index == 0 && s.registry == map[] else s.index < |s.requests|
  }

  /** The session invariant: buffers and registry built from `commands`, index in range. */
  predicate Valid(s: Session) {
    && s.requests == Requests(s.station, s.commands)
    && s.registry == Register(s.commands)
    && (if |s.commands| == 0 then s.index == 0 else s.index < |s.commands|)
  }

  lemma ValidShape(s: Session)
    requires Valid(s)
    ensures Shape(s)
  {
  }

  /**
    Builds the request buffers and the registry for `commands`, and resets the
    index: one 20-character request per command in order, every command key
    registered, a later command replacing an earlier one with the same key.
   */
  method BuildBuf(station: int, commands: seq<Command>) returns (s: Session)
    ensures Valid(s)
    ensures s.station == station && s.commands == commands && s.index == 0
    ensures |s.requests| == |commands|
    ensures forall i | 0 <= i < |s.requests| ::
              |s.requests[i]| == RequestLength
              && DecodeRequest(s.requests[i]) == Some(Request(Mask12(commands[i].device), Mask12(station),
                                                              Mask12(commands[i].code)))
    ensures IsRegistryOf(commands, s.registry)
  {
    var requests: seq<string> := [];
    var registry: map<Key, Command> := map[];
    var i := 0;
    while i < |commands|
      invariant 0 <= i <= |commands|
      invariant requests == Requests(station, commands[..i])
      invariant registry == Register(commands[..i])
    {
      var c := commands[i];
      assert commands[..i + 1][..i] == commands[..i];
      registry := registry[KeyOf(c) := c];
      requests := requests + [EncodeRequest(c.device, station, c.code)];
      i := i + 1;
    }
    assert commands[..i] == commands;
    s := Session(station, commands, requests, registry, 0);
    RequestsDecode(station, commands);
    RegisterIsRegistry(commands);
  }

  /** Every request frame is 20 characters and decodes to its command's masked fields. */
  lemma RequestsDecode(station: int, commands: seq<Command>)
    ensures forall i | 0 <= i < |commands| ::
              |Requests(station, commands)[i]| == RequestLength
              && DecodeRequest(Requests(station, commands)[i])
                 == Some(Request(Mask12(commands[i].device), Mask12(station), Mask12(commands[i].code)))
  {
    forall i | 0 <= i < |commands|
      ensures Requests(station, commands)[i] == EncodeRequest(commands[i].device, station, commands[i].code)
    {
      RequestsAt(station, commands, i);
    }
  }

  /** Later entries win: the registry maps a key to the last command carrying it. */
  lemma RegistryLastWins(commands: seq<Command>, registry: map<Key, Command>, i: nat)
    requires IsRegistryOf(commands, registry) && i < |commands|
    requires forall j | i < j < |commands| :: KeyOf(commands[j]) != KeyOf(commands[i])
    ensures KeyOf(commands[i]) in registry && registry[KeyOf(commands[i])] == commands[i]
  {
    var k := KeyOf(commands[i]);
    assert k in registry;
    var j :| LastWithKey(commands, k, j) && registry[k] == commands[j];
    assert LastWithKey(commands, k, i);
  }

  /**
    The frame to write next: none when there are no commands, otherwise one of
    the request buffers.
   */
  function Send(s: Session): (r: Option<string>)
    requires |s.requests| == 0 || s.index < |s.requests|
    ensures r.None? <==> |s.requests| == 0
    ensures r.Some? ==> r.value in s.requests
  {
    if |s.requests| == 0 then None else Some(s.requests[s.index])
  }

  /** With commands configured, the frame written is the request for the command at the index. */
  lemma SendCurrent(s: Session)
    requires Valid(s) && |s.commands| > 0
    ensures var c := s.commands[s.index];
      && Send(s) == Some(EncodeRequest(c.device, s.station, c.code))
      && |Send(s).value| == RequestLength
      && DecodeRequest(Send(s).value) == Some(Request(Mask12(c.device), Mask12(s.station), Mask12(c.code)))
  {
    RequestsAt(s.station, s.commands, s.index);
  }

  /** Before any command is configured, nothing is ever written. */
  lemma SendNothingWithoutCommands(s: Session)
    requires Valid(s) && |s.commands| == 0
    ensures Send(s) == None
  {
  }

  /** The next index of the round, wrapping to 0 after the last command. */
  function Advance(s: Session): (s': Session)
    requires |s.requests| > 0
    ensures s' == s.(index := s'.index)
    ensures s'.index < |s.requests|
    ensures s.index < |s.requests| ==> (s'.index == 0 <==> s.index == |s.requests| - 1)
    ensures s.index + 1 < |s.requests| ==> s'.index == s.index + 1
  {
    s.(index := (s.index + 1) % |s.requests|)
  }

  /** The timestamp handed to the hook: the caller's, or the clock reading when none was given. */
  function Stamp(tm: Option<Time>, clock: Time): Time {
    if tm.Some? then tm.value else clock
  }

  /**
    Handles one received frame. A frame the decoder rejects changes nothing and
    invokes no hook. A decoded frame invokes the hook once with the registered
    command; if the hook raises, nothing else happens; otherwise the index
    advances, and the signal is Stop when the round wrapped and WantWrite
    otherwise.
   */
  function Process(s: Session, data: string, tm: Option<Time>, clock: Time, hookRaises: bool): (o: Outcome)
    requires Shape(s)
    ensures Shape(o.session)
    ensures o.session == s.(index := o.session.index)
    ensures o.dispatch.Some? <==> Decode(data, s.station, s.registry).Ok?
  {
    match Decode(data, s.station, s.registry)
    case Err(_) => Outcome(s, Idle, None)
    case Ok(r) =>
      var d := Dispatch(r.matched, r.payload, Stamp(tm, clock));
      if hookRaises then Outcome(s, Idle, Some(d))
      else
        var s' := Advance(s);
        Outcome(s', if s'.index == 0 then Stop else WantWrite, Some(d))
  }

  /** Handling a frame keeps the session invariant: only the index moves, and it stays in range. */
  lemma ProcessKeepsValid(s: Session, data: string, tm: Option<Time>, clock: Time, hookRaises: bool)
    requires Valid(s)
    ensures Valid(Process(s, data, tm, clock, hookRaises).session)
  {
    ValidShape(s);
  }

  /** A rejected frame returns 0, changes nothing and invokes no hook. */
  lemma Rejected(s: Session, data: string, tm: Option<Time>, clock: Time, hookRaises: bool)
    requires Shape(s) && Decode(data, s.station, s.registry).Err?
    ensures Process(s, data, tm, clock, hookRaises) == Outcome(s, Idle, None)
  {
  }

  /** When the hook raises, the frame is dropped: the index stays and 0 is returned. */
  lemma HookRaised(s: Session, data: string, tm: Option<Time>, clock: Time)
    requires Shape(s) && Decode(data, s.station, s.registry).Ok?
    ensures var o := Process(s, data, tm, clock, true);
      o.session == s && o.signal == Idle && o.dispatch.Some?
  {
  }

  /**
    A completed poll advances the index modulo the number of commands; the
    signal is Stop exactly when the index wrapped to 0, and WantWrite otherwise.
   */
  lemma Advanced(s: Session, data: string, tm: Option<Time>, clock: Time)
    requires Shape(s) && Decode(data, s.station, s.registry).Ok?
    ensures var o := Process(s, data, tm, clock, false);
      && |s.requests| > 0
      && o.session.index == (s.index + 1) % |s.requests|
      && (o.signal == Stop <==> o.session.index == 0)
      && (o.signal == WantWrite <==> o.session.index != 0)
      && o.dispatch.Some?
  {
  }

  /**
    The hook receives the command registered under the frame's source and
    command fields, the characters between the size field and the checksum,
    and the caller's timestamp (or the clock reading).
   */
  lemma DispatchContents(s: Session, data: string, tm: Option<Time>, clock: Time, hookRaises: bool)
    requires Shape(s) && Process(s, data, tm, clock, hookRaises).dispatch.Some?
    ensures var d := Process(s, data, tm, clock, hookRaises).dispatch.value;
      && ParseHex(data[4..7]).Some? && ParseHex(data[7..10]).Some?
      && (ParseHex(data[4..7]).value, ParseHex(data[7..10]).value) in s.registry
      && d.command == s.registry[(ParseHex(data[4..7]).value, ParseHex(data[7..10]).value)]
      && d.payload == data[15..|data| - 4]
      && d.time == Stamp(tm, clock)
  {
  }

  /** A session without commands rejects every frame: its registry is empty. */
  lemma NoCommandsNoDispatch(s: Session, data: string, tm: Option<Time>, clock: Time, hookRaises: bool)
    requires Valid(s) && |s.commands| == 0
    ensures Process(s, data, tm, clock, hookRaises) == Outcome(s, Idle, None)
  {
    assert s.registry == map[];
  }

  // ------------------------------------------------------------ poll rounds

  /** One received frame together with its timestamp, clock reading and the hook's behaviour. */
  datatype Input = Input(data: string, tm: Option<Time>, clock: Time, hookRaises: bool)

  /** The signals and hook invocations of a run over several frames, and the final session. */
  datatype Trace = Trace(session: Session, signals: seq<Signal>, dispatches: seq<Dispatch>)

  /** A frame that completes a poll: it decodes for this session and the hook returns normally. */
  predicate Completes(s: Session, input: Input) {
    Decode(input.data, s.station, s.registry).Ok? && !input.hookRaises
  }

  /** Handles `inputs` one after another, starting from `s`. */
  function Run(s: Session, inputs: seq<Input>): (t: Trace)
    requires Shape(s)
    ensures Shape(t.session) && t.session == s.(index := t.session.index)
    ensures |t.signals| == |inputs| && |t.dispatches| <= |inputs|
    decreases |inputs|
  {
    if |inputs| == 0 then Trace(s, [], [])
    else
      var x := inputs[0];
      var o := Process(s, x.data, x.tm, x.clock, x.hookRaises);
      var t := Run(o.session, inputs[1..]);
      Trace(t.session, [o.signal] + t.signals,
            (if o.dispatch.Some? then [o.dispatch.value] else []) + t.dispatches)
  }

  /** How many of `inputs` complete a poll for `s` (the registry and station never change). */
  function Completed(s: Session, inputs: seq<Input>): (n: nat)
    ensures n <= |inputs|
  {
    if |inputs| == 0 then 0
    else (if Completes(s, inputs[0]) then 1 else 0) + Completed(s, inputs[1..])
  }

  lemma MulMono(a: int, b: int, n: nat)
    requires a < b
    ensures a * n + n <= b * n
  {
    assert b * n == a * n + (b - a) * n;
    assert (b - a) * n >= n by {
      assert (b - a) * n == n + (b - a - 1) * n;
      assert (b - a - 1) * n >= 0;
    }
  }

  lemma DivModUnique(y: int, n: nat, d: int, r: int)
    requires n > 0 && 0 <= r < n && y == d * n + r
    ensures y / n == d && y % n == r
  {
    var d', r' := y / n, y % n;
    assert y == d' * n + r';
    if d < d' {
      MulMono(d, d', n);
    } else if d' < d {
      MulMono(d', d, n);
    }
  }

  /** Reducing modulo n before adding k does not change the residue. */
  lemma ModStep(a: nat, k: nat, n: nat)
    requires n > 0
    ensures ((a + 1) % n + k) % n == (a + 1 + k) % n
  {
    var q, r := (a + 1) / n, (a + 1) % n;
    var q', r' := (r + k) / n, (r + k) % n;
    assert a + 1 + k == (q + q') * n + r';
    DivModUnique(a + 1 + k, n, q + q', r');
  }

  /** Index arithmetic of one step of a run: `m` polls completed in all, the first one if `done`. */
  lemma IndexStep(n: nat, i: nat, o: nat, k: nat, m: nat, t: int, done: bool)
    requires n > 0 && i < n
    requires done ==> o == (i + 1) % n
    requires !done ==> o == i
    requires t == (o + k) % n
    requires m == (if done then 1 else 0) + k
    ensures t == (i + m) % n
  {
    if done {
      ModStep(i, k, n);
    }
  }

  /** A run is the first frame's handling followed by the run over the rest. */
  lemma RunFirst(s: Session, inputs: seq<Input>)
    requires Shape(s) && |inputs| > 0
    ensures var x := inputs[0];
      var o := Process(s, x.data, x.tm, x.clock, x.hookRaises);
      && Run(s, inputs).session == Run(o.session, inputs[1..]).session
      && Run(s, inputs).signals == [o.signal] + Run(o.session, inputs[1..]).signals
  {
  }

  lemma CompletedFirst(s: Session, inputs: seq<Input>)
    requires |inputs| > 0
    ensures Completed(s, inputs) == (if Completes(s, inputs[0]) then 1 else 0) + Completed(s, inputs[1..])
  {
  }

  /** The index moves on by one exactly when the frame completes a poll. */
  lemma StepIndex(s: Session, x: Input)
    requires Shape(s) && |s.requests| > 0
    ensures Process(s, x.data, x.tm, x.clock, x.hookRaises).session.index
      == if Completes(s, x) then (s.index + 1) % |s.requests| else s.index
  {
    if Decode(x.data, s.station, s.registry).Err? {
      Rejected(s, x.data, x.tm, x.clock, x.hookRaises);
    } else if x.hookRaises {
      HookRaised(s, x.data, x.tm, x.clock);
    } else {
      Advanced(s, x.data, x.tm, x.clock);
    }
  }

  /** One step of `RunIndex`: the claim for the rest of the frames gives the claim for all of them. */
  lemma {:induction false} RunIndexStep(s: Session, inputs: seq<Input>)
    requires Shape(s) && |s.requests| > 0 && |inputs| > 0
    requires var x := inputs[0];
      var s' := Process(s, x.data, x.tm, x.clock, x.hookRaises).session;
      Run(s', inputs[1..]).session.index == (s'.index + Completed(s', inputs[1..])) % |s.requests|
    ensures Run(s, inputs).session.index == (s.index + Completed(s, inputs)) % |s.requests|
  {
    var x, rest := inputs[0], inputs[1..];
    var s' := Process(s, x.data, x.tm, x.clock, x.hookRaises).session;
    var n, k, done := |s.requests|, Completed(s, rest), Completes(s, x);
    assert Completed(s', rest) == k by { CompletedDependsOnTable(s, s', rest); }
    assert s'.index == if done then (s.index + 1) % n else s.index by { StepIndex(s, x); }
    assert Run(s, inputs).session.index == Run(s', rest).session.index by { RunFirst(s, inputs); }
    assert Completed(s, inputs) == (if done then 1 else 0) + k by { CompletedFirst(s, inputs); }
    IndexStep(n, s.index, s'.index, k, Completed(s, inputs), Run(s, inputs).session.index, done);
  }

  /**
    The index after a run has moved on by the number of completed polls,
    modulo the number of commands; every other part of the session is kept.
   */
  lemma {:induction false} RunIndex(s: Session, inputs: seq<Input>)
    requires Shape(s) && |s.requests| > 0
    ensures Run(s, inputs).session.index == (s.index + Completed(s, inputs)) % |s.requests|
    decreases |inputs|
  {
    if |inputs| == 0 {
      assert s.index % |s.requests| == s.index;
    } else {
      var x := inputs[0];
      RunIndex(Process(s, x.data, x.tm, x.clock, x.hookRaises).session, inputs[1..]);
      RunIndexStep(s, inputs);
    }
  }

  /** Completion depends only on the station and the registry. */
  lemma {:induction false} CompletedDependsOnTable(s: Session, s': Session, inputs: seq<Input>)
    requires s.station == s'.station && s.registry == s'.registry
    ensures Completed(s, inputs) == Completed(s', inputs)
    decreases |inputs|
  {
    if |inputs| > 0 {
      CompletedDependsOnTable(s, s', inputs[1..]);
    }
  }

  /**
    Within one round: from index i, while every frame completes a poll, the
    j-th signal is Stop exactly when it answers the last command and WantWrite
    otherwise.
   */
  lemma {:induction false} RoundFrom(s: Session, inputs: seq<Input>)
    requires Shape(s) && s.index + |inputs| <= |s.requests|
    requires forall j | 0 <= j < |inputs| :: Completes(s, inputs[j])
    ensures forall j | 0 <= j < |inputs| ::
              Run(s, inputs).signals[j] == if s.index + j + 1 == |s.requests| then Stop else WantWrite
    decreases |inputs|
  {
    if |inputs| > 0 {
      var x := inputs[0];
      assert Completes(s, x);
      var o := Process(s, x.data, x.tm, x.clock, x.hookRaises);
      var rest := inputs[1..];
      assert o.session.index == s.index + 1 || o.session.index == 0;
      if |rest| > 0 {
        assert o.session.index == s.index + 1;
        forall j | 0 <= j < |rest|
          ensures Completes(o.session, rest[j])
        {
          assert Completes(s, inputs[j + 1]);
        }
        RoundFrom(o.session, rest);
      }
    }
  }

  /** After N completed polls from index 0, the index is back at 0. */
  lemma {:induction false} RoundReturns(s: Session, inputs: seq<Input>)
    requires Shape(s) && s.index == 0 && |inputs| == |s.requests| > 0
    requires Completed(s, inputs) == |inputs|
    ensures Run(s, inputs).session.index == 0
  {
    var n, t := |inputs|, Run(s, inputs).session.index;
    assert t == (s.index + n) % n by { RunIndex(s, inputs); }
    assert s.index + n == 1 * n + 0;
    DivModUnique(s.index + n, n, 1, 0);
  }

  /**
    A full round: starting at index 0, N frames that each complete a poll
    produce N - 1 WantWrite signals followed by one Stop, and the index is back
    at 0.
   */
  lemma {:induction false} FullRound(s: Session, inputs: seq<Input>)
    requires Shape(s) && s.index == 0 && |inputs| == |s.requests| > 0
    requires forall j | 0 <= j < |inputs| :: Completes(s, inputs[j])
    ensures Run(s, inputs).signals == seq(|inputs| - 1, _ => WantWrite) + [Stop]
    ensures Run(s, inputs).session.index == 0
  {
    RoundFrom(s, inputs);
    var signals := Run(s, inputs).signals;
    assert forall j | 0 <= j < |inputs| :: signals[j] == if j + 1 == |inputs| then Stop else WantWrite;
    assert signals == seq(|inputs| - 1, _ => WantWrite) + [Stop];
    AllComplete(s, inputs);
    RoundReturns(s, inputs);
  }

  lemma {:induction false} AllComplete(s: Session, inputs: seq<Input>)
    requires forall j | 0 <= j < |inputs| :: Completes(s, inputs[j])
    ensures Completed(s, inputs) == |inputs|
    decreases |inputs|
  {
    if |inputs| > 0 {
      assert Completes(s, inputs[0]);
      AllComplete(s, inputs[1..]);
    }
  }
}

=== FILE: table.dfy ===
/**
  The command table: the configured poll commands and the registry that maps
  a (device address, command code) key back to the command that asked for it.
 */
module Table {

  /** Caller-defined data carried along with a command; the engine never reads it. */
  type Meta = map<string, string>

  /** One configured poll target: `[device, code, meta]` in the source's configuration. */
  datatype Command = Command(device: int, code: int, meta: Meta)

  /** Registry key: the (device address, command code) pair of a command. */
  type Key = (int, int)

  function KeyOf(c: Command): Key {
    (c.device, c.code)
  }

  /** `i` is the position of the last command in `commands` whose key is `k`. */
  ghost predicate LastWithKey(commands: seq<Command>, k: Key, i: int) {
    && 0 <= i < |commands|
    && KeyOf(commands[i]) == k
    && forall j | i < j < |commands| :: KeyOf(commands[j]) != k
  }

  /**
    `registry` is what inserting every command in order produces: every
    command's key is present, and each key maps to the last command carrying
    it (a later command replaces an earlier one with the same key).
   */
  ghost predicate IsRegistryOf(commands: seq<Command>, registry: map<Key, Command>) {
    && (forall i | 0 <= i < |commands| :: KeyOf(commands[i]) in registry)
    && (forall k | k in registry :: exists i :: LastWithKey(commands, k, i) && registry[k] == commands[i])
  }

  /** The empty registry belongs to the empty table. */
  lemma RegistryOfNothing()
    ensures IsRegistryOf([], map[])
  {
  }

  /** Inserting the next command keeps the registry in step with the table. */
  lemma RegistryStep(commands: seq<Command>, registry: map<Key, Command>, c: Command)
    requires IsRegistryOf(commands, registry)
    ensures IsRegistryOf(commands + [c], registry[KeyOf(c) := c])
  {
    var commands', registry' := commands + [c], registry[KeyOf(c) := c];
    forall k | k in registry'
      ensures exists i :: LastWithKey(commands', k, i) && registry'[k] == commands'[i]
    {
      if k == KeyOf(c) {
        assert LastWithKey(commands', k, |commands|);
      } else {
        var i :| LastWithKey(commands, k, i) && registry[k] == commands[i];
        assert LastWithKey(commands', k, i);
      }
    }
    forall i | 0 <= i < |commands'|
      ensures KeyOf(commands'[i]) in registry'
    {
      if i < |commands| {
        assert commands'[i] == commands[i];
      }
    }
  }

  /** The registry produced by inserting every command in order, later ones overwriting. */
  function Register(commands: seq<Command>): (registry: map<Key, Command>)
    ensures |commands| == 0 ==> registry == map[]
    decreases |commands|
  {
    if |commands| == 0 then map[]
    else
      var c := commands[|commands| - 1];
      Register(commands[..|commands| - 1])[KeyOf(c) := c]
  }

  /** Inserting in order produces exactly the registry the table describes. */
  lemma {:induction false} RegisterIsRegistry(commands: seq<Command>)
    ensures IsRegistryOf(commands, Register(commands))
    decreases |commands|
  {
    if |commands| == 0 {
      RegistryOfNothing();
    } else {
      var init, c := commands[..|commands| - 1], commands[|commands| - 1];
      RegisterIsRegistry(init);
      RegistryStep(init, Register(init), c);
      assert init + [c] == commands;
    }
  }

  /** The source packs a key as `device << 24 | code`; for codes below 2^24 that is this sum. */
  function PackKey(device: nat, code: nat): nat
    requires code < 0x100_0000
  {
    device * 0x100_0000 + code
  }

  /** Packed keys and pair keys identify the same commands when codes fit in 24 bits. */
  lemma PackKeyInjective(d1: nat, c1: nat, d2: nat, c2: nat)
    requires c1 < 0x100_0000 && c2 < 0x100_0000
    ensures PackKey(d1, c1) == PackKey(d2, c2) <==> (d1, c1) == (d2, c2)
  {
    if d1 < d2 {
      assert PackKey(d1, c1) < (d1 + 1) * 0x100_0000 <= PackKey(d2, c2);
    } else if d2 < d1 {
      assert PackKey(d2, c2) < (d2 + 1) * 0x100_0000 <= PackKey(d1, c1);
    }
  }
}

=== FILE: text.dfy ===
/**
  ASCII text helpers: the ASCII check applied to received bytes, uppercase
  hexadecimal rendering as done by Python's '%0<w>X' format, and hexadecimal
  parsing of fixed-width fields.
 */
module Text {
  import opened Wrappers

  /** Every character is a 7-bit ASCII code. */
  predicate IsAscii(s: string) {
    forall i | 0 <= i < |s| :: s[i] as int < 0x80
  }

  predicate IsHexDigit(c: char) {
    '0' <= c <= '9' || 'A' <= c <= 'F' || 'a' <= c <= 'f'
  }

  predicate IsUpperHexDigit(c: char) {
    '0' <= c <= '9' || 'A' <= c <= 'F'
  }

  predicate AllHex(s: string) {
    forall i | 0 <= i < |s| :: IsHexDigit(s[i])
  }

  predicate IsUpperHex(s: string) {
    forall i | 0 <= i < |s| :: IsUpperHexDigit(s[i])
  }

  function Pow16(k: nat): (r: nat)
    ensures r >= 1
  {
    if k == 0 then 1 else 16 * Pow16(k - 1)
  }

  /** Value of one hexadecimal digit, either case. */
  function DigitValue(c: char): (v: nat)
    requires IsHexDigit(c)
    ensures v < 16
  {
    if '0' <= c <= '9' then c as int - '0' as int
    else if 'A' <= c <= 'F' then c as int - 'A' as int + 10
    else c as int - 'a' as int + 10
  }

  /** The uppercase digit for a value below 16; reading it back gives the value. */
  function Digit(v: nat): (c: char)
    requires v < 16
    ensures IsUpperHexDigit(c) && IsHexDigit(c)
    ensures DigitValue(c) == v
  {
    if v < 10 then ('0' as int + v) as char else ('A' as int + v - 10) as char
  }

  /** Value of a string of hexadecimal digits, most significant first. */
  function HexValue(s: string): (v: nat)
    requires AllHex(s)
    ensures v < Pow16(|s|)
  {
    if |s| == 0 then 0 else 16 * HexValue(s[..|s| - 1]) + DigitValue(s[|s| - 1])
  }

  /**
    Strict hexadecimal parse of a field: it succeeds exactly when the field is
    non-empty and every character is a hexadecimal digit.
   */
  function ParseHex(s: string): (r: Option<nat>)
    ensures r.Some? <==> |s| > 0 && AllHex(s)
    ensures r.Some? ==> r.value < Pow16(|s|)
  {
    if |s| > 0 && AllHex(s) then Some(HexValue(s)) else None
  }

  /**
    Uppercase hexadecimal rendering of `n`, zero-padded to at least `width`
    digits, as Python's '%0<width>X' produces it: a value that needs more
    digits gets more digits, and 0 with width 0 still renders as "0".
   */
  function FormatHex(n: nat, width: nat): (r: string)
    ensures IsUpperHex(r) && AllHex(r)
    ensures |r| >= 1 && |r| >= width
    ensures width >= 1 && n < Pow16(width) ==> |r| == width
    ensures ParseHex(r) == Some(n)
    decreases n + width
  {
    if n < 16 && width <= 1 then [Digit(n)]
    else
      var prefix := FormatHex(n / 16, if width == 0 then 0 else width - 1);
      AppendDigit(prefix, n % 16);
      prefix + [Digit(n % 16)]
  }

  /** Appending a digit to a field multiplies its value by 16 and adds the digit. */
  lemma AppendDigit(s: string, d: nat)
    requires AllHex(s) && IsUpperHex(s) && d < 16
    ensures AllHex(s + [Digit(d)]) && IsUpperHex(s + [Digit(d)])
    ensures HexValue(s + [Digit(d)]) == 16 * HexValue(s) + d
  {
    var r := s + [Digit(d)];
    assert r[..|r| - 1] == s;
  }

  /**
    Rendering is the inverse of parsing on canonical fields: an uppercase
    field of w >= 1 digits is exactly the rendering of its value at width w.
   */
  lemma {:induction false} FormatOfParse(s: string)
    requires |s| >= 1 && IsUpperHex(s) && AllHex(s)
    ensures FormatHex(HexValue(s), |s|) == s
  {
    var n := HexValue(s);
    var init := s[..|s| - 1];
    var last := s[|s| - 1];
    assert n == 16 * HexValue(init) + DigitValue(last);
    assert Digit(DigitValue(last)) == last by {
      assert IsUpperHexDigit(last);
    }
    if |s| == 1 {
      assert HexValue(init) == 0;
      assert s == [last];
    } else {
      FormatOfParse(init);
      assert n / 16 == HexValue(init) && n % 16 == DigitValue(last);
      assert s == init + [last];
    }
  }

  /** A hexadecimal digit in uppercase: 'a'..'f' become 'A'..'F', everything else is kept. */
  function UpperDigit(c: char): char {
    if 'a' <= c <= 'f' then (c as int - 32) as char else c
  }

  /** The field with every lowercase hexadecimal digit in uppercase. */
  function UpperHex(s: string): (r: string)
    ensures |r| == |s|
    decreases |s|
  {
    if |s| == 0 then [] else UpperHex(s[..|s| - 1]) + [UpperDigit(s[|s| - 1])]
  }

  /**
    Rendering the value of a field of either case gives the field in
    uppercase, so a lowercase field reads as the same value as its uppercase
    spelling.
   */
  lemma {:induction false} FormatOfParseAnyCase(s: string)
    requires |s| >= 1 && AllHex(s)
    ensures FormatHex(HexValue(s), |s|) == UpperHex(s)
    ensures ParseHex(UpperHex(s)) == ParseHex(s)
  {
    var n := HexValue(s);
    var init := s[..|s| - 1];
    var last := s[|s| - 1];
    assert n == 16 * HexValue(init) + DigitValue(last);
    assert Digit(DigitValue(last)) == UpperDigit(last) by {
      assert IsHexDigit(last);
    }
    if |s| == 1 {
      assert HexValue(init) == 0;
      assert UpperHex(s) == [UpperDigit(last)];
    } else {
      FormatOfParseAnyCase(init);
      assert n / 16 == HexValue(init) && n % 16 == DigitValue(last);
    }
  }

  /** A byte renders at width 2 as its two digits. */
  lemma FormatTwo(n: nat)
    requires n < 0x100
    ensures FormatHex(n, 2) == [Digit(n / 16), Digit(n % 16)]
  {
    assert FormatHex(n / 16, 1) == [Digit(n / 16)];
  }

  /** A 12-bit value renders at width 3 as its three digits. */
  lemma FormatThree(n: nat)
    requires n < 0x1000
    ensures FormatHex(n, 3) == [Digit(n / 256), Digit(n / 16 % 16), Digit(n % 16)]
  {
    assert n / 16 / 16 == n / 256;
    FormatTwo(n / 16);
  }

  /** The value of a three-digit field, digit by digit. */
  lemma HexValueThree(s: string)
    requires |s| == 3 && AllHex(s)
    ensures HexValue(s) == 256 * DigitValue(s[0]) + 16 * DigitValue(s[1]) + DigitValue(s[2])
  {
    assert s[..2][..1] == s[..1] && s[..1][..0] == [];
    assert HexValue(s[..1]) == DigitValue(s[0]);
    assert HexValue(s[..2]) == 16 * DigitValue(s[0]) + DigitValue(s[1]);
  }

  /** Hexadecimal digits are ASCII characters. */
  lemma HexIsAscii(s: string)
    requires AllHex(s)
    ensures IsAscii(s)
  {
    forall i | 0 <= i < |s|
      ensures s[i] as int < 0x80
    {
      assert IsHexDigit(s[i]);
    }
  }

  /** A concatenation is ASCII exactly when both parts are. */
  lemma AsciiConcat(a: string, b: string)
    ensures IsAscii(a + b) <==> IsAscii(a) && IsAscii(b)
  {
    if IsAscii(a) && IsAscii(b) {
      forall i | 0 <= i < |a + b|
        ensures (a + b)[i] as int < 0x80
      {
        if i >= |a| {
          assert (a + b)[i] == b[i - |a|];
        }
      }
    }
    if IsAscii(a + b) {
      forall i | 0 <= i < |b|
        ensures b[i] as int < 0x80
      {
        assert (a + b)[|a| + i] == b[i];
      }
      forall i | 0 <= i < |a|
        ensures a[i] as int < 0x80
      {
        assert (a + b)[i] == a[i];
      }
    }
  }
}

=== FILE: wrappers.dfy ===
/** Failure-compatible result types used across the protocol model. */
module Wrappers {

  datatype Option<+T> = None | Some(value: T)

  datatype Result<+T, +E> = Ok(value: T) | Err(error: E)
}
